=== FILE: README.md ===
# k2000 in Dafny

A model of `k2000`, a command-line logger for a Keithley 2000 multimeter on
a GPIB bus. The program does five things:

- It reads its options with its own System V style `GetOpt`.
- It checks the bus address, the measurement mode, the delay and the timeout.
- It opens the data file, resets the instrument, reads its identity, optionally
  blanks its display, and selects the measurement function with a `:func`
  command built from a six-entry mode table.
- It runs a `do ... while` acquisition loop. Each pass writes `:read?`, reads the
  reply, and logs one row per reading. It flushes the file (and re-plots in
  gnuplot) every `-w` samples, stops on a timeout or on 'q'/ESC, and polls the
  keyboard with `kbhit`/`readch`.
- It tears down: footer, file, terminal, gnuplot, display restore, preset. The
  exit status it returns is part of the model.

The model is a set of pure functions over immutable datatypes. The outside world
is data handed in as input:

- the bus results of start-up;
- one `Event` per loop iteration: whether the write worked, the bytes `ibrd`
  delivered, the elapsed minutes, and the keys typed meanwhile;
- the keyboard's pending bytes;
- the outcomes of the two closing writes;
- what `sscanf` converts.

Modules, one concern each:

- `Base`: `Option`, `Key`, the control characters.
- `CString`: C strings, `strclean`.
- `OptionParser` and `OptionParserFacts`: `GetOpt` as a step function over
  (`optind`, `letP`), with its per-letter behaviour and worked example.
- `Keyboard`: `kbhit`, `readch`, polling.
- `Instrument`: mode table, command strings, reply clean-up, start-up sequence.
- `CommandLine` and `CommandLineExamples`: the option `switch` and the choice of
  the data file.
- `Acquisition` and `AcquisitionFacts`: one loop iteration, a run of the loop, and
  what a run guarantees.
- `Session` and `SessionFacts`: from `fopen` to `return`, with the exit status.

### Behaviour of the code worth knowing

- A failed `ibrd` in the loop does not end the session with a failure status. The
  code `break`s to the normal teardown: footer, file closed, display restored,
  preset. It returns 0 unless one of those two writes fails
  (`SessionFacts.ReadFailureAfterThreeSamples`). Within the loop, only a failed
  `:read?` write returns ERR_INST; after the `break`, a failed display-restore or
  preset write also returns ERR_INST, as every failed start-up step does.
- The timeout does not take precedence over the keyboard. It sets `key = ESC`, but
  a key other than 'q' or ESC polled later in the same iteration overwrites it, and the loop goes on
  (`AcquisitionFacts.KeyOverridesTimeout`). The usage text (k2000.c:115) says
  `-T` stops the acquisition after that time.
- The plot labels are not injective: modes 2 and 4 both use "Ohm"
  (`Instrument.LabelsNotDistinct`). The SCPI function names are distinct.
- A lone `-` on the command line ends the options. It is not an error
  (`OptionParserFacts.LoneSwitchIsEndOfOptions`), although the comment above
  `GetOpt` (k2000.c:532) calls it one.
- gnuplot is launched even with `-n`, which the usage text (k2000.c:118) describes
  as "no graphics". On the normal path it is then left without `pclose`
  (`Session.Close`, field `plotLeftOpen`).
- The flush cadence `-w` is never checked by the program.
- The comments beside the two NUL stores (k2000.c:256, 335) say that replies end
  in CR LF, yet only the last byte is removed. If the instrument does send CR LF,
  the CR stays in the logged text and the identity. An overflow is then logged as
  "+9.9E37" plus CR, never as "OVERFLOW" (`Instrument.CrLfOverflowKeepsCr`). The
  model keeps the code's behaviour: it removes one byte.

## Model

| member | source | states |
|---|---|---|
| CString.Line | k2000.c:433-440 | the line kept is a prefix of the buffer with no CR or LF, cut exactly at the first CR or LF when there is one |
| CString.StrClean | k2000.c:429-442 | the loop over the buffer cuts it at the first CR or LF and returns the remaining length; a buffer without CR/LF is returned unchanged; the result is `Line` of the buffer |
| CString.LineIdempotent | k2000.c:429-442 | cleaning a cleaned line changes nothing |
| CString.LineOfCleanText | k2000.c:433-440 | a text with no CR or LF is its own cleaned line |
| CString.CStr | k2000.c:335 | overwriting a byte with NUL makes the string end there: what C reads is the NUL-free prefix before the first NUL |
| OptionParser.IndexOf | k2000.c:598 | `strchr` returns the first position holding the character |
| OptionParser.GetOpt | k2000.c:571-634 | EOF when `optind` is past the arguments, when the next argument does not start with '-', and (stepping `optind`) on "--"; errors and EOF leave `optarg` NULL; a returned letter is in the option string, is not ':', and has an argument exactly when the option string marks it with ':'; `optind` never moves back and moves by at most two; every letter returned consumes input, so the option loop ends |
| OptionParserFacts.LetterSemantics | k2000.c:593-621 | for the letter under `letP`: end of cluster is EOF with `optind` advanced; ':' or an unlisted letter is '~' with `optind` kept; a flag letter advances `optind` exactly when it ends its cluster; an argument letter takes the rest of its cluster, else the next argument, else fails with '~' |
| OptionParserFacts.LoneSwitchIsEndOfOptions | k2000.c:584-596 | a lone "-" ends the options and is skipped |
| OptionParserFacts.ErrorKeepsCursor | k2000.c:593-599 | after '~' for an unknown last letter of a cluster, the following call answers EOF and steps past the cluster |
| OptionParserFacts.FirstOccurrenceAt | k2000.c:598-600 | a character first found at k is listed, and it takes an argument exactly when ':' follows position k |
| OptionParserFacts.FlagStep | k2000.c:612-621 | a flag letter returns with no argument; `letP` moves on inside the cluster, or the cluster is done and `optind` advances |
| OptionParserFacts.ArgumentStep | k2000.c:600-611 | an argument letter returns the rest of its cluster, or else the next argument, and moves `optind` past what it took |
| OptionParserFacts.ExampleIsWellFormed | k2000.c:554-561 | the documented command line and option string are C strings of the example's shape |
| OptionParserFacts.WorkedExample | k2000.c:554-569 | `aCommand -uPFPi -X -A L someFile` with "A:F:PuU:wXZ:" yields u, P, F "Pi", X, A "L", then EOF with `optind` at the file name |
| CommandLine.ArgumentLettersTakeArguments | k2000.c:141 | in "hfnda:w:t:T:m:c:g:" each of a, w, t, T, m, c, g takes an argument |
| CommandLine.Apply | k2000.c:142-203 | 'h' and only 'h' asks for help; a letter without a case is refused, and otherwise only `-a`, `-t`, `-T` and `-m` can refuse; applying a letter to settings in range leaves them in range; an `-a`, `-t`, `-T` or `-m` whose value `sscanf` does not convert leaves settings in range exactly as they were |
| CommandLine.ApplyChangesOnlyOwnSetting | k2000.c:147-198 | each letter changes at most its own variable: `-a` the address, `-m` the mode, `-t` the delay, `-T` the timeout, `-w` the cadence, `-d` the display flag, `-n` the graph flag, `-f` the overwrite flag, `-c` the comment |
| CommandLine.ApplySetsFlags | k2000.c:147-165 | `-f` sets overwriting, `-n` turns the plot off, `-d` blanks the display, `-w` stores the converted cadence or keeps the old one, `-g` changes no setting |
| CommandLine.ApplyChecksRanges | k2000.c:166-198 | a converted address outside 0..30, delay outside 0..600, mode outside 0..5 or negative timeout is refused, and a value inside is stored |
| CommandLine.ApplyRefusalCause | k2000.c:156-198 | a refusal of an argument letter means `sscanf` converted a bad value; `-c` sets the comment to the cleaned line unless that line is empty, and changes nothing else |
| CommandLine.Options | k2000.c:141-203 | the option loop keeps settings in range and leaves `optind` no lower than it found it; when it goes on, its settings are those the letters before EOF set one after the other (`LoopReaches`), and the `optind` returned is the one that EOF left |
| CommandLine.OptionsAfter | k2000.c:141-203 | once the loop has read some letters and applied them, it ends as it would have ended had it started there with those settings |
| CommandLine.LoopKeepsFlags | k2000.c:147-155 | once `-f` has set overwriting, or `-n`/`-d` has cleared the plot or the display, no later letter undoes it |
| CommandLine.OptionsKeepFlags | k2000.c:147-155 | a loop that reads `-f`, `-n` or `-d` and goes on ends with that flag in its settings |
| CommandLine.OptionsStopsAt | k2000.c:141-203 | '~' or a refused letter ends the loop with status 1, 'h' with help, EOF with the settings so far and the `optind` EOF left |
| CommandLine.OptionsVerdict | k2000.c:141-203 | help only after `GetOpt` returned 'h', refusal only after '~' or one of a, t, T, m, and going on only after `GetOpt` answered EOF with the `optind` returned, each at a state the loop reached through letters |
| OptionParserFacts.EndOfOptionsAt | k2000.c:580-596 | from a state between calls, EOF leaves `optind` past the arguments, at an argument not starting with '-', or just after a lone "-" or an argument starting with "--" |
| CommandLine.OptionsEnd | k2000.c:141-214 | from the start, the option loop goes on only with `optind` at 1 or more and, inside `argv`, at an argument that follows the options |
| CommandLine.CommandLineOutcome | k2000.c:141-214 | wherever the loop from the start arrives: '~' there, or a letter `Apply` refuses (a converted value out of range), returns 1; 'h' returns 0; EOF launches with the settings reached and `argv[optind]`, or returns 1 when there is no such argument |
| CommandLine.LaunchKeepsFlags | k2000.c:141-214 | `-f`, `-n` or `-d` anywhere among the options read holds in the settings the program launches with |
| CommandLine.ReadCommandLine | k2000.c:141-214 | the program launches only with settings in range, and those settings are the ones the letters read set one after the other; the data file is `argv[optind]` where `GetOpt` answered EOF: an argument not starting with '-' unless it follows "-" or "--..."; status 0 only after 'h'; status 1 only after '~', a range-checked letter, or EOF with no argument left |
| CommandLineExamples.SeparateArgumentIn | k2000.c:600-609 | `-x VALUE` for a letter marked with ':' returns x with VALUE and moves `optind` to 3 |
| CommandLineExamples.SeparateArgument | k2000.c:141 | the same for every argument letter of the program's option string |
| CommandLineExamples.ModeOutOfRangeRefused | k2000.c:190-197 | `-m 7` makes the program return 1 whatever follows |
| CommandLineExamples.FileEndsOptions | k2000.c:584-585 | an argument not starting with '-', at any position the loop reaches with no cluster open, ends the option loop there with the settings unchanged |
| CommandLineExamples.AddressAccepted | k2000.c:166-214 | `-a 7 FILE` launches with address 7 and FILE as data file |
| CommandLineExamples.SeparateArgumentAt | k2000.c:600-609 | `-x VALUE` at any position, read from a fresh cluster, returns x with VALUE and moves `optind` past both |
| CommandLineExamples.FlagFirst | k2000.c:612-621 | `-x` alone as the first argument, for a listed letter without ':', returns x with no argument and moves `optind` to 2 |
| CommandLineExamples.ForceIsAFlag | k2000.c:141 | `f` is listed in the option string and takes no argument |
| CommandLineExamples.ForcedThenBadAddress | k2000.c:141-172 | `-f -a 99 FILE` applies `-f`, then refuses address 99, so the program returns 1 although a data file follows |
| Keyboard.KbHit | k2000.c:468-486 | true exactly when a key is pending; a held key is kept, otherwise at most one byte moves into the hold; no key is lost |
| Keyboard.ReadCh | k2000.c:488-501 | returns the held key (or the next byte) and empties the hold; what it returns followed by what is left is what was pending |
| Keyboard.Poll | k2000.c:363-364 | `if (kbhit()) key = readch()` returns the oldest pending key, if any, and leaves no key held |
| Keyboard.PollMany | k2000.c:363-364 | repeated polls return the keys in typing order, as many as were pending up to the number of polls |
| Instrument.TablesAreTotal | k2000.c:128-131 | both tables have an entry for each mode 0..5 |
| Instrument.ModeNamesDistinct | k2000.c:128 | distinct modes name distinct SCPI functions |
| Instrument.LabelsNotDistinct | k2000.c:131 | modes 2 and 4 share the label "Ohm" |
| Instrument.FuncCommand | k2000.c:266-269 | the `:func` command starts with ":func '", ends with "';:init; *opc\n" and fits the command buffer |
| Instrument.FuncCommandRoundTrip | k2000.c:266-269 | the mode can be read back from its `:func` command |
| Instrument.Received | k2000.c:335 | the text is the reply without its last byte, cut at the first NUL in it if there is one, and the whole of it when there is none |
| Instrument.Reading | k2000.c:335-338 | "+9.9E37" is replaced by "OVERFLOW"; every other reply is logged as received; the logged text is never the sentinel |
| Instrument.CrLfOverflowKeepsCr | k2000.c:335-338 | for the reply "+9.9E37" CR LF only the LF is removed, so "+9.9E37" CR is logged and not "OVERFLOW" |
| Instrument.Configure | k2000.c:237-274 | start-up succeeds exactly when every step succeeds (blanking only when `-d` was given); it sends a prefix of reset, identity query, blanking, `:func`, all of them on success, and keeps the identity received |
| Acquisition.Iterate | k2000.c:317-365 | a failed write exits with ERR_INST and a failed read breaks, neither logging a row; a successful exchange logs exactly its row, counts it, and stops exactly when the key is 'q' or ESC |
| Acquisition.IterateCadence | k2000.c:318-360 | the loop sleeps exactly when the delay is positive; the file is flushed exactly when the count reaches a multiple of the cadence; gnuplot re-plots on those flushes exactly when graphics are on |
| Acquisition.IterateKey | k2000.c:347-364 | the key the loop condition checks is the polled key if one was pending, else ESC on timeout, else the previous key |
| Acquisition.IterateTerminal | k2000.c:362-364 | the keyboard is polled once, only after a successful exchange, and a polled key is recorded |
| Acquisition.Run | k2000.c:316-366 | the run consumes at most the events given, all of them while the loop is still going, and at least one when it exits |
| AcquisitionFacts.RunEndsAtFirstExit | k2000.c:317-366 | the loop ends at the first iteration that exits: every earlier iteration went on, and the last one, from the state they left, gives the final state and exit |
| AcquisitionFacts.RunLogsEverySample | k2000.c:342-344 | the rows written are exactly one per successful exchange of the iterations run, in order, and the count matches |
| AcquisitionFacts.RunExitExplained | k2000.c:321-334 | every iteration before the last succeeded; a stop key leaves all successful; `break` means the last read failed; ERR_INST means the last write failed |
| AcquisitionFacts.EverySuccessLogged | k2000.c:342-344 | N successful exchanges without a stop log exactly N rows, in order |
| AcquisitionFacts.AllSucceedAllLogged | k2000.c:342-344 | when every exchange succeeds, the i-th row logged is that of the i-th exchange |
| AcquisitionFacts.IterateKeepsKeyOrder | k2000.c:362-364 | in one iteration, keys taken plus keys pending equal keys before plus keys typed, and at most one key is taken |
| AcquisitionFacts.RunDeliversKeysInOrder | k2000.c:362-366 | over a run, every typed key is returned by `readch` once, in typing order, or is still pending |
| AcquisitionFacts.IterateKeepsAccounted | k2000.c:351-360 | one iteration keeps flushes = count / cadence and the flushed rows at the last multiple of the cadence |
| AcquisitionFacts.RunKeepsAccounted | k2000.c:351-360 | after any run the file was flushed count / cadence times and fewer than cadence rows wait for a flush |
| AcquisitionFacts.IterateStopCause | k2000.c:347-366 | a successful iteration stops exactly when the polled key is 'q' or ESC, or when nothing was polled and the timeout fired |
| AcquisitionFacts.RunStopsAtTimeout | k2000.c:347-366 | with no keys and no failures the loop stops in the first iteration past a positive timeout and never with timeout 0 |
| AcquisitionFacts.KeyOverridesTimeout | k2000.c:347-366 | a key other than 'q' or ESC polled in the iteration in which the timeout fires replaces ESC, and the loop goes on |
| AcquisitionFacts.KeyOverridesTimeoutExample | k2000.c:347-366 | 'x' typed at minute 2 with a one-minute timeout keeps the loop going |
| Session.Close | k2000.c:321-386 | the file is closed and the terminal, set to raw mode before the loop, restored on every path; the footer is written exactly unless the `:read?` write failed; the status is 0 exactly when the loop did not end on a failed write and the restore and preset writes succeeded, else ERR_INST; gnuplot is left open exactly when it launched, `-n` was given and the footer path was taken; after a failed `:read?` no further command is written, otherwise `:DISP:TEXT:STAT 0` follows when `-d` was given and `syst:pres` unless that write failed |
| Session.RunSession | k2000.c:229-386 | a returned session returns 0, ERR_FILE or ERR_INST; ERR_FILE exactly when the file does not open; no header exactly when the file or start-up failed; a footer only after the full header; the header lines are the version, "# Instrument: " with the identity read at start-up, "# " with the `-c` comment, and the column titles; the terminal is put into raw mode exactly when the loop is reached, and is restored on every return |
| SessionFacts.SessionStatus | k2000.c:321-386 | the status is 0 exactly when the file opened, start-up succeeded, the loop stopped on a key or on a failed read, and the closing writes succeeded |
| SessionFacts.SessionLogsSamples | k2000.c:342-369 | a session that reached the loop logs exactly the samples of the iterations it ran, and writes the footer unless a `:read?` write failed |
| SessionFacts.StartupFailureIsInstrumentError | k2000.c:237-274 | a start-up failure returns ERR_INST with no rows, no footer, and the terminal never put into raw mode |
| SessionFacts.ExampleReadings | k2000.c:335-338 | the replies "+1.0E0", "+9.9E37" and "+3.0E0" with their LF are logged as "+1.0E0", "OVERFLOW" and "+3.0E0" |
| SessionFacts.ThreeReadingsThenFailedRead | k2000.c:330-338 | three readings (the second the overflow sentinel) then a failed read: three rows with "OVERFLOW" in the middle, loop ended by `break` |
| SessionFacts.ReadFailureAfterThreeSamples | k2000.c:330-386 | that session returns 0 with the footer and the three rows |
| SessionFacts.WriteFailureAfterThreeSamples | k2000.c:321-328 | when the fourth `:read?` write fails the session returns ERR_INST with three rows and no footer |

## Left out

- The GPIB library (`ibdev`, `ibwrt`, `ibrd`, `ibcnt`, `iberr`) is not part of this model. Each call's outcome and the bytes read are inputs; `inst_write` is "the write succeeded".
- Terminal mode switching (`init_keyboard`, `close_keyboard`, `tcsetattr`) is reduced to two flags: whether the terminal was put into raw mode, and whether it is still raw. `Keyboard.ReadCh` models a blocking `read` with nothing ever arriving as "no key", because the model has no time.
- `usleep`, `gettimeofday`, `time` and `ctime` are left out. The elapsed minutes of each iteration are an input, and the sleep is only counted. The "Acquisition start/stop" time lines of the header and footer are omitted.
- `printf` output to the screen, `perror` messages, and the `%.4f` formatting of the minutes column are left out. Rows hold the minutes as a real and the reading as text.
- The gnuplot commands (`set ...`, `plot ...`) are not modelled as text. Only whether gnuplot launched, whether it re-plots on each flush, and whether it is closed are modelled.
- `sscanf` conversions are an input (`CommandLine.Scanners`): the value converted, or none, which leaves the variable unchanged. Field widths such as `%5d` are part of that input. `-g` stores into a buffer the program never uses, so it changes no setting.
- The existence check and overwrite prompt before `fopen` (`access`, `fgetc`), and the `-f` flag's effect on it, are left out. Whether the file opens is an input.
- Acquisition.Iterate and Session.RunSession require a positive flush cadence. `-w 0` makes `loop % do_flush` undefined behaviour in C. A negative `-w` is converted to a huge unsigned divisor and never flushes. The model covers neither.
- Acquisition.Iterate: the sample counter `loop` is an `unsigned long` in the source. Its wrap-around after 2^64 samples is not modelled.
- Buffer overflows are not modelled: `strcpy` of a long `-c` comment or data file name into 127-byte buffers, and replies longer than the buffers allow. Replies are bounded (`WellFormed`, `WellFormedStartup`) the way the `ibrd` counts bound them.
- When `ibdev` fails, the program calls `pclose(gp)` on a NULL `gp` (gnuplot is only launched later). That call is not modelled; the model only returns ERR_INST.
- Keys are restricted to 7-bit ASCII (`Base.Key`). A byte 0xFF read into the signed `char` `peek_character` would collide with its -1 "nothing held" sentinel. The model does not include that collision.
- `GetOpt`'s `errno` setting and `opterr` message are left out. The help text and disclaimer are left out too.

=== FILE: acquisition.dfy ===
/** The acquisition loop of `main`, one iteration at a time. The bus, the clock
    and the keyboard are replaced by a sequence of events, one per iteration. */
module Acquisition {
  import opened Base
  import opened Instrument
  import opened Keyboard

  /** The settings the loop reads: delay between samples (0.1 s units), timeout in
      minutes (0 = endless), flush cadence in samples, and whether gnuplot is fed. */
  datatype Pacing = Pacing(delay: int, tstop: real, flushEvery: int, graph: bool)

  /** One iteration's dealings with the outside: whether writing `:read?` worked,
      the bytes `ibrd` delivered (None when it reported an error), the elapsed
      minutes computed after the read, and the keys typed in the meantime. */
  datatype Event = Event(writeOk: bool, reply: Option<seq<char>>, minutes: real, typed: seq<Key>)

  /** `ibrd(dvm, buffer, 90)` delivers at least one and at most 90 bytes. */
  predicate WellFormed(e: Event) {
    e.reply.Some? ==> 1 <= |e.reply.value| <= 90
  }

  predicate AllWellFormed(events: seq<Event>) {
    forall i :: 0 <= i < |events| ==> WellFormed(events[i])
  }

  /** A row of the log file: elapsed minutes and the reading text. */
  datatype Row = Row(minutes: real, reading: string)

  /** The loop's variables: the sample counter `loop`, the last `key`, the rows
      written, how often the file was flushed and how many rows that covered, how
      often gnuplot was told to re-plot, how often the loop slept, the keys
      `readch` returned, and the keyboard. */
  datatype Loop = Loop(
    count: nat, key: int, rows: seq<Row>, flushes: nat, flushedRows: nat,
    refreshes: nat, sleeps: nat, keys: seq<Key>, term: Terminal)

  /** `key = 0` before the loop, with the keyboard as `init_keyboard` left it. */
  function Begin(term: Terminal): Loop {
    Loop(0, 0, [], 0, 0, 0, 0, [], term)
  }

  /** How the loop ended: on 'q' or ESC (typed, or set by the timeout), by `break`
      after a failed `ibrd`, or by `return ERR_INST` after a failed write. */
  datatype Exit = Stopped | ReadFailed | WriteFailed

  predicate Succeeds(e: Event) {
    e.writeOk && e.reply.Some?
  }

  /** The row an iteration with a successful write and read appends. */
  function RowOf(e: Event): Row
    requires WellFormed(e) && Succeeds(e)
  {
    Row(e.minutes, Reading(e.reply.value))
  }

  /** The condition of the `do ... while`: the loop ends on 'q' or ESC. */
  predicate IsStopKey(key: int) {
    key == QuitKey || key == ESC
  }

  /** `(t1 > tstop) && (tstop > 0.0)`. */
  predicate TimedOut(p: Pacing, minutes: real) {
    minutes > p.tstop && p.tstop > 0.0
  }

  /** The key the iteration polls, if one is pending. */
  function PolledKey(s: Loop, e: Event): Option<Key> {
    Poll(Type(s.term, e.typed)).0
  }

  /** One pass through the body of the acquisition loop. */
  function Iterate(p: Pacing, s: Loop, e: Event): (r: (Loop, Option<Exit>))
    requires p.flushEvery > 0 && WellFormed(e)
    // the exit path
    ensures !e.writeOk ==> r.1 == Some(WriteFailed)
    ensures e.writeOk && e.reply.None? ==> r.1 == Some(ReadFailed)
    ensures Succeeds(e) ==> (r.1 == Some(Stopped) <==> IsStopKey(r.0.key))
    ensures Succeeds(e) ==> (r.1.None? <==> !IsStopKey(r.0.key))
    // a failed exchange logs nothing, a successful one logs exactly one row and counts it
    ensures !Succeeds(e) ==> r.0.rows == s.rows && r.0.count == s.count
    ensures Succeeds(e) ==> r.0.count == s.count + 1 && r.0.rows == s.rows + [RowOf(e)]
  {
    var slept := s.(sleeps := s.sleeps + (if p.delay > 0 then 1 else 0), term := Type(s.term, e.typed));
    if !e.writeOk then
      (slept, Some(WriteFailed))
    else if e.reply.None? then
      (slept, Some(ReadFailed))
    else
      var count := s.count + 1;
      var rows := s.rows + [Row(e.minutes, Reading(e.reply.value))];
      var timeoutKey := if e.minutes > p.tstop && p.tstop > 0.0 then ESC else s.key;
      var flush := count % p.flushEvery == 0;
      var (polled, term) := Poll(slept.term);
      var key := if polled.Some? then polled.value else timeoutKey;
      var next := Loop(
        count, key, rows,
        s.flushes + (if flush then 1 else 0),
        if flush then |rows| else s.flushedRows,
        s.refreshes + (if flush && p.graph then 1 else 0),
        slept.sleeps,
        s.keys + (if polled.Some? then [polled.value] else []),
        term);
      (next, if key != QuitKey && key != ESC then None else Some(Stopped))
  }

  /** The file is flushed, and gnuplot told to re-plot when graphics are on, exactly
      when a logged sample brings the count to a multiple of the cadence; the loop
      sleeps before every exchange exactly when the delay is positive. */
  lemma IterateCadence(p: Pacing, s: Loop, e: Event)
    requires p.flushEvery > 0 && WellFormed(e)
    ensures var r := Iterate(p, s, e).0;
            && (!Succeeds(e) ==> r.flushes == s.flushes && r.flushedRows == s.flushedRows)
            && (Succeeds(e) ==> (r.flushes == s.flushes + 1 <==> r.count % p.flushEvery == 0))
            && (Succeeds(e) ==> r.flushes <= s.flushes + 1)
            && (Succeeds(e) ==> r.flushedRows == if r.count % p.flushEvery == 0 then |r.rows| else s.flushedRows)
            && r.refreshes == s.refreshes + (if p.graph && r.flushes > s.flushes then 1 else 0)
            && r.sleeps == s.sleeps + (if p.delay > 0 then 1 else 0)
  {
  }

  /** The key the loop condition tests after a successful exchange: the timeout
      writes ESC, a key polled later in the same iteration overwrites it. */
  lemma IterateKey(p: Pacing, s: Loop, e: Event)
    requires p.flushEvery > 0 && WellFormed(e) && Succeeds(e)
    ensures var r := Iterate(p, s, e).0;
            && (PolledKey(s, e).Some? ==> r.key == PolledKey(s, e).value)
            && (PolledKey(s, e).None? ==> r.key == (if TimedOut(p, e.minutes) then ESC else s.key))
  {
  }

  /** The keyboard after one iteration: the typed keys are queued, and a successful
      exchange is followed by one poll, whose key is recorded. */
  lemma IterateTerminal(p: Pacing, s: Loop, e: Event)
    requires p.flushEvery > 0 && WellFormed(e)
    ensures var r := Iterate(p, s, e).0;
            var (k, t) := Poll(Type(s.term, e.typed));
            && (Succeeds(e) ==> r.term == t && r.keys == s.keys + (if k.Some? then [k.value] else []))
            && (!Succeeds(e) ==> r.term == Type(s.term, e.typed) && r.keys == s.keys)
  {
  }

  /** The loop run over the events until it exits or the events run out: the
      state, the exit (None while still running), and the events consumed. */
  datatype Outcome = Outcome(state: Loop, exit: Option<Exit>, used: nat)

  function Run(p: Pacing, s: Loop, events: seq<Event>): (r: Outcome)
    requires p.flushEvery > 0 && AllWellFormed(events)
    ensures r.used <= |events|
    ensures r.exit.None? ==> r.used == |events|
    ensures r.exit.Some? ==> r.used >= 1
    decreases |events|
  {
    if |events| == 0 then Outcome(s, None, 0)
    else
      var (s1, exit) := Iterate(p, s, events[0]);
      if exit.Some? then Outcome(s1, exit, 1)
      else
        var r := Run(p, s1, events[1..]);
        r.(used := r.used + 1)
  }
}

/** What the acquisition loop guarantees over a whole run. */
module AcquisitionFacts {
  import opened Base
  import opened Keyboard
  import opened Acquisition

  /** Reference: the row one iteration logs, if its exchange succeeded. */
  function Logged(e: Event): seq<Row> {
    if Succeeds(e) && WellFormed(e) then [RowOf(e)] else []
  }

  /** Reference: the rows a sequence of iterations logs, one per successful
      exchange, in order. */
  function Samples(events: seq<Event>): (rows: seq<Row>)
    ensures |rows| <= |events|
  {
    if |events| == 0 then [] else Logged(events[0]) + Samples(events[1..])
  }

  /** Reference: everything typed during a sequence of iterations. */
  function Typed(events: seq<Event>): seq<Key> {
    if |events| == 0 then [] else events[0].typed + Typed(events[1..])
  }

  /** The first `k + 1` events are the first event followed by the first `k` of the rest. */
  lemma PrefixCons(events: seq<Event>, k: nat)
    requires 0 < |events| && k < |events|
    ensures events[..k + 1][0] == events[0] && events[..k + 1][1..] == events[1..][..k]
  {
  }

  /** The events after the first are well formed too. */
  lemma RestWellFormed(events: seq<Event>)
    requires 0 < |events| && AllWellFormed(events)
    ensures AllWellFormed(events[1..])
  {
    var rest := events[1..];
    forall i | 0 <= i < |rest| ensures WellFormed(rest[i]) {
      assert rest[i] == events[i + 1];
    }
  }

  lemma SamplesOfPrefix(events: seq<Event>, k: nat)
    requires 0 < |events| && k < |events|
    ensures Samples(events[..k + 1]) == Logged(events[0]) + Samples(events[1..][..k])
  {
    PrefixCons(events, k);
  }

  /** What `RunLogsEverySample` states of a run from `s` over `events`. */
  predicate LogsSamples(p: Pacing, s: Loop, events: seq<Event>)
    requires p.flushEvery > 0 && AllWellFormed(events)
  {
    var r := Run(p, s, events);
    && r.state.rows == s.rows + Samples(events[..r.used])
    && r.state.count == s.count + |Samples(events[..r.used])|
  }

  /** The run ends in its first iteration. */
  lemma LogsSamplesAtExit(p: Pacing, s: Loop, events: seq<Event>)
    requires p.flushEvery > 0 && AllWellFormed(events) && 0 < |events|
    requires Iterate(p, s, events[0]).1.Some?
    ensures LogsSamples(p, s, events)
  {
    SamplesOfPrefix(events, 0);
    assert events[1..][..0] == [];
  }

  /** The run goes on after its first iteration, and the rest of it logs its samples. */
  lemma LogsSamplesStep(p: Pacing, s: Loop, events: seq<Event>)
    requires p.flushEvery > 0 && AllWellFormed(events) && 0 < |events|
    requires Iterate(p, s, events[0]).1.None?
    requires AllWellFormed(events[1..]) && LogsSamples(p, Iterate(p, s, events[0]).0, events[1..])
    ensures LogsSamples(p, s, events)
  {
    var e := events[0];
    var s1 := Iterate(p, s, e).0;
    var r1 := Run(p, s1, events[1..]);
    var n := r1.used;
    assert Run(p, s, events) == r1.(used := n + 1);
    assert Succeeds(e);
    SamplesOfPrefix(events, n);
    var later := Samples(events[1..][..n]);
    assert Logged(e) == [RowOf(e)];
    assert Samples(events[..n + 1]) == [RowOf(e)] + later;
    assert r1.state.rows == s.rows + [RowOf(e)] + later;
    AppendAssociative(s.rows, [RowOf(e)], later);
  }

  /** The loop logs one row per successful exchange, in order, and nothing else. */
  lemma {:induction false} RunLogsEverySample(p: Pacing, s: Loop, events: seq<Event>)
    requires p.flushEvery > 0 && AllWellFormed(events)
    ensures var r := Run(p, s, events);
            && r.state.rows == s.rows + Samples(events[..r.used])
            && r.state.count == s.count + |Samples(events[..r.used])|
    decreases |events|
  {
    if |events| == 0 {
      assert events[..0] == [];
    } else if Iterate(p, s, events[0]).1.Some? {
      LogsSamplesAtExit(p, s, events);
    } else {
      RestWellFormed(events);
      RunLogsEverySample(p, Iterate(p, s, events[0]).0, events[1..]);
      LogsSamplesStep(p, s, events);
    }
  }

  /** The events before `k` are well formed too. */
  lemma PrefixWellFormed(events: seq<Event>, k: nat)
    requires k <= |events| && AllWellFormed(events)
    ensures AllWellFormed(events[..k])
  {
    var prefix := events[..k];
    forall i | 0 <= i < |prefix| ensures WellFormed(prefix[i]) {
      assert prefix[i] == events[i];
    }
  }

  /** What `RunEndsAtFirstExit` states of a run from `s` over `events`. */
  predicate EndsAtFirstExit(p: Pacing, s: Loop, events: seq<Event>)
    requires p.flushEvery > 0 && AllWellFormed(events)
  {
    var r := Run(p, s, events);
    r.exit.Some? ==>
      && AllWellFormed(events[..r.used - 1])
      && var before := Run(p, s, events[..r.used - 1]);
         && before.exit.None? && before.used == r.used - 1
         && Iterate(p, before.state, events[r.used - 1]) == (r.state, r.exit)
  }

  /** The run goes on after its first iteration, and the rest of it ends at its first exit. */
  lemma EndsAtFirstExitStep(p: Pacing, s: Loop, events: seq<Event>)
    requires p.flushEvery > 0 && AllWellFormed(events) && 0 < |events|
    requires Iterate(p, s, events[0]).1.None?
    requires AllWellFormed(events[1..]) && EndsAtFirstExit(p, Iterate(p, s, events[0]).0, events[1..])
    ensures EndsAtFirstExit(p, s, events)
  {
    var s1 := Iterate(p, s, events[0]).0;
    var rest := events[1..];
    var r := Run(p, s, events);
    var r1 := Run(p, s1, rest);
    assert r == r1.(used := r1.used + 1);
    if r1.exit.Some? {
      var n := r1.used - 1;
      var prefix := events[..n + 1];
      PrefixCons(events, n);
      PrefixWellFormed(events, n + 1);
      var before1 := Run(p, s1, rest[..n]);
      assert Run(p, s, prefix) == before1.(used := before1.used + 1);
      assert events[r.used - 1] == rest[n];
    }
  }

  /** The loop ends at the first iteration that exits: the run over the events
      before it went on through all of them, and the last iteration, from the
      state they left, produced the final state and the exit. */
  lemma {:induction false} RunEndsAtFirstExit(p: Pacing, s: Loop, events: seq<Event>)
    requires p.flushEvery > 0 && AllWellFormed(events)
    ensures var r := Run(p, s, events);
            r.exit.Some? ==>
              && AllWellFormed(events[..r.used - 1])
              && var before := Run(p, s, events[..r.used - 1]);
                 && before.exit.None? && before.used == r.used - 1
                 && Iterate(p, before.state, events[r.used - 1]) == (r.state, r.exit)
    decreases |events|
  {
    if |events| > 0 {
      if Iterate(p, s, events[0]).1.Some? {
        assert events[..0] == [];
      } else {
        RestWellFormed(events);
        RunEndsAtFirstExit(p, Iterate(p, s, events[0]).0, events[1..]);
        EndsAtFirstExitStep(p, s, events);
      }
    }
  }

  /** Every iteration but the last one of a run succeeded; the last one explains
      the exit: it succeeded too when the loop stopped on a key or is still running,
      its read failed on `break`, its write failed on `return ERR_INST`. */
  lemma {:induction false} RunExitExplained(p: Pacing, s: Loop, events: seq<Event>)
    requires p.flushEvery > 0 && AllWellFormed(events)
    ensures var r := Run(p, s, events);
            && (forall i :: 0 <= i < r.used - 1 ==> Succeeds(events[i]))
            && (r.exit.None? || r.exit == Some(Stopped) ==> forall i :: 0 <= i < r.used ==> Succeeds(events[i]))
            && (r.exit == Some(ReadFailed) ==> events[r.used - 1].writeOk && events[r.used - 1].reply.None?)
            && (r.exit == Some(WriteFailed) ==> !events[r.used - 1].writeOk)
    decreases |events|
  {
    if |events| > 0 {
      var (s1, exit) := Iterate(p, s, events[0]);
      if exit.None? {
        var rest := events[1..];
        RestWellFormed(events);
        var r1 := Run(p, s1, rest);
        var r := Run(p, s, events);
        assert r == r1.(used := r1.used + 1);
        assert Succeeds(events[0]);
        RunExitExplained(p, s1, rest);
        forall i | 0 < i < |events| ensures events[i] == rest[i - 1] {
        }
      }
    }
  }

  /** N exchanges without a stop key or a failure log exactly N rows, in order. */
  lemma EverySuccessLogged(p: Pacing, s: Loop, events: seq<Event>)
    requires p.flushEvery > 0 && AllWellFormed(events)
    requires forall i :: 0 <= i < |events| ==> Succeeds(events[i])
    requires Run(p, s, events).exit.None?
    ensures Run(p, s, events).state.rows == s.rows + Samples(events)
    ensures |Samples(events)| == |events|
  {
    RunLogsEverySample(p, s, events);
    assert events[..|events|] == events;
    AllSucceedAllLogged(events);
  }

  /** When every exchange succeeds, the reference logs one row per event, in order. */
  lemma {:induction false} AllSucceedAllLogged(events: seq<Event>)
    requires AllWellFormed(events)
    requires forall i :: 0 <= i < |events| ==> Succeeds(events[i])
    ensures |Samples(events)| == |events|
    ensures forall i :: 0 <= i < |events| ==> Samples(events)[i] == RowOf(events[i])
  {
    if |events| > 0 {
      var rest := events[1..];
      RestWellFormed(events);
      forall i | 0 <= i < |rest| ensures Succeeds(rest[i]) {
        assert rest[i] == events[i + 1];
      }
      AllSucceedAllLogged(rest);
      var all := Samples(events);
      assert Logged(events[0]) == [RowOf(events[0])];
      assert all == [RowOf(events[0])] + Samples(rest);
      forall i | 0 <= i < |events| ensures all[i] == RowOf(events[i]) {
        if i > 0 {
          assert all[i] == Samples(rest)[i - 1] && events[i] == rest[i - 1];
        }
      }
    }
  }

  /** In one iteration, every typed key is either returned by `readch` or still
      pending, in typing order; at most one key is taken, and only after a
      successful exchange. */
  lemma IterateKeepsKeyOrder(p: Pacing, s: Loop, e: Event)
    requires p.flushEvery > 0 && WellFormed(e)
    ensures var s1 := Iterate(p, s, e).0;
            && s1.keys + Pending(s1.term) == s.keys + Pending(s.term) + e.typed
            && s1.keys == s.keys + (if Succeeds(e) && PolledKey(s, e).Some? then [PolledKey(s, e).value] else [])
  {
    var t := Type(s.term, e.typed);
    var s1 := Iterate(p, s, e).0;
    IterateTerminal(p, s, e);
    AppendAssociative(s.keys, Pending(s.term), e.typed);
    if Succeeds(e) {
      var (k, t2) := Poll(t);
      if k.Some? {
        AppendAssociative(s.keys, [k.value], Pending(t2));
      }
    }
  }

  /** Every key typed comes out of `readch` once, in typing order, or is still pending. */
  lemma {:induction false} RunDeliversKeysInOrder(p: Pacing, s: Loop, events: seq<Event>)
    requires p.flushEvery > 0 && AllWellFormed(events)
    ensures var r := Run(p, s, events);
            r.state.keys + Pending(r.state.term) == s.keys + Pending(s.term) + Typed(events[..r.used])
    decreases |events|
  {
    var r := Run(p, s, events);
    if |events| == 0 {
      assert events[..0] == [];
    } else {
      var (s1, exit) := Iterate(p, s, events[0]);
      IterateKeepsKeyOrder(p, s, events[0]);
      if exit.Some? {
        assert events[..1] == [events[0]];
        assert Typed(events[..1]) == events[0].typed + Typed([]);
      } else {
        var rest := events[1..];
        RestWellFormed(events);
        var r1 := Run(p, s1, rest);
        IterateKeepsKeyOrder(p, s, events[0]);
        RunDeliversKeysInOrder(p, s1, rest);
        PrefixCons(events, r1.used);
        assert Typed(events[..r.used]) == events[0].typed + Typed(rest[..r1.used]);
      }
    }
  }

  /** The flush bookkeeping: `flushes` is the number of multiples of the cadence
      reached so far, the flushed rows end at the last such multiple, and gnuplot
      was told to re-plot on each flush exactly when graphics are on. */
  predicate Accounted(p: Pacing, s: Loop)
    requires p.flushEvery > 0
  {
    && |s.rows| == s.count
    && s.flushes == s.count / p.flushEvery
    && s.flushedRows == s.count - s.count % p.flushEvery
    && s.refreshes == (if p.graph then s.flushes else 0)
  }

  lemma BeginIsAccounted(p: Pacing, term: Terminal)
    requires p.flushEvery > 0
    ensures Accounted(p, Begin(term))
  {
  }

  /** Counting one sample up passes a multiple of `c` exactly when the new count is one. */
  lemma CountUp(n: nat, c: int)
    requires c > 0
    ensures (n + 1) / c == n / c + (if (n + 1) % c == 0 then 1 else 0)
    ensures (n + 1) % c != 0 ==> (n + 1) - (n + 1) % c == n - n % c
  {
    var q, m := n / c, n % c;
    assert n == q * c + m && 0 <= m < c;
    if m + 1 == c {
      assert n + 1 == (q + 1) * c;
      DivModUnique(n + 1, c, q + 1, 0);
    } else {
      assert n + 1 == q * c + (m + 1);
      DivModUnique(n + 1, c, q, m + 1);
    }
  }

  lemma DivModUnique(a: int, c: int, q: int, m: int)
    requires c > 0 && a == q * c + m && 0 <= m < c
    ensures a / c == q && a % c == m
  {
    var q', m' := a / c, a % c;
    assert (q - q') * c == m' - m;
    if q > q' {
      AtLeastOnce(q - q', c);
    } else if q < q' {
      AtLeastOnce(q' - q, c);
    }
  }

  lemma {:induction false} AtLeastOnce(k: int, c: int)
    requires k >= 1 && c > 0
    ensures k * c >= c
    decreases k
  {
    if k > 1 {
      AtLeastOnce(k - 1, c);
      assert k * c == (k - 1) * c + c;
    }
  }

  lemma IterateKeepsAccounted(p: Pacing, s: Loop, e: Event)
    requires p.flushEvery > 0 && WellFormed(e) && Accounted(p, s)
    ensures Accounted(p, Iterate(p, s, e).0)
  {
    IterateCadence(p, s, e);
    if Succeeds(e) {
      CountUp(s.count, p.flushEvery);
    }
  }

  /** The bookkeeping holds after any run; in particular, after K samples the file
      was flushed K / C times and fewer than C rows are waiting for a flush. */
  lemma {:induction false} RunKeepsAccounted(p: Pacing, s: Loop, events: seq<Event>)
    requires p.flushEvery > 0 && AllWellFormed(events) && Accounted(p, s)
    ensures var r := Run(p, s, events);
            && Accounted(p, r.state)
            && r.state.flushes == r.state.count / p.flushEvery
            && r.state.flushedRows <= |r.state.rows| < r.state.flushedRows + p.flushEvery
    decreases |events|
  {
    if |events| > 0 {
      var (s1, exit) := Iterate(p, s, events[0]);
      IterateKeepsAccounted(p, s, events[0]);
      if exit.None? {
        var rest := events[1..];
        RestWellFormed(events);
        RunKeepsAccounted(p, s1, rest);
      }
    }
  }

  /** Why a successful iteration stops the loop: the key it polled is 'q' or ESC,
      or no key was pending and the timeout fired. A polled key always wins over
      the timeout. */
  lemma IterateStopCause(p: Pacing, s: Loop, e: Event)
    requires p.flushEvery > 0 && WellFormed(e) && Succeeds(e) && !IsStopKey(s.key)
    ensures Iterate(p, s, e).1 == Some(Stopped) <==>
              if PolledKey(s, e).Some? then IsStopKey(PolledKey(s, e).value) else TimedOut(p, e.minutes)
    ensures Iterate(p, s, e).1.None? <==> !(Iterate(p, s, e).1 == Some(Stopped))
  {
    IterateKey(p, s, e);
  }

  /** No key is pending and none is typed. */
  predicate Quiet(s: Loop, events: seq<Event>) {
    Pending(s.term) == [] && forall i :: 0 <= i < |events| ==> events[i].typed == []
  }

  /** Without keys and failures, the loop ends in the first iteration whose elapsed
      time exceeds a positive timeout, and not before; with no timeout it never ends. */
  lemma {:induction false} RunStopsAtTimeout(p: Pacing, s: Loop, events: seq<Event>)
    requires p.flushEvery > 0 && AllWellFormed(events)
    requires forall i :: 0 <= i < |events| ==> Succeeds(events[i])
    requires Quiet(s, events) && !IsStopKey(s.key)
    ensures var r := Run(p, s, events);
            && (forall i :: 0 <= i < r.used - 1 ==> !TimedOut(p, events[i].minutes))
            && (r.exit.Some? ==> r.exit == Some(Stopped) && TimedOut(p, events[r.used - 1].minutes))
            && (r.exit.None? ==> forall i :: 0 <= i < |events| ==> !TimedOut(p, events[i].minutes))
            && (p.tstop == 0.0 ==> r.exit.None?)
    decreases |events|
  {
    if |events| > 0 {
      var e := events[0];
      assert PolledKey(s, e).None?;
      IterateKey(p, s, e);
      var (s1, exit) := Iterate(p, s, e);
      if exit.None? {
        var rest := events[1..];
        RestWellFormed(events);
        assert forall i :: 0 <= i < |rest| ==> Succeeds(rest[i]) && rest[i].typed == [] by {
          forall i | 0 <= i < |rest| ensures Succeeds(rest[i]) && rest[i].typed == [] {
            assert rest[i] == events[i + 1];
          }
        }
        assert Pending(s1.term) == [];
        RunStopsAtTimeout(p, s1, rest);
        var r1 := Run(p, s1, rest);
        forall i | 0 <= i < r1.used ensures !TimedOut(p, events[i].minutes) {
          if i > 0 {
            assert events[i] == rest[i - 1];
          }
        }
        if r1.exit.Some? {
          assert events[r1.used] == rest[r1.used - 1];
        } else {
          forall i | 0 <= i < |events| ensures !TimedOut(p, events[i].minutes) {
            if i > 0 {
              assert events[i] == rest[i - 1];
            }
          }
        }
      }
    }
  }

  /** A key other than 'q' or ESC polled in the iteration in which the timeout
      fires overwrites ESC, so the loop goes on. */
  lemma KeyOverridesTimeout(p: Pacing, s: Loop, e: Event)
    requires p.flushEvery > 0 && WellFormed(e) && Succeeds(e) && TimedOut(p, e.minutes)
    requires PolledKey(s, e).Some? && !IsStopKey(PolledKey(s, e).value)
    ensures Iterate(p, s, e).1.None? && Iterate(p, s, e).0.key == PolledKey(s, e).value
  {
    IterateKey(p, s, e);
  }

  /** For instance 'x' typed at minute 2 with a one-minute timeout. */
  lemma KeyOverridesTimeoutExample()
    ensures var p := Pacing(0, 1.0, 1, false);
            var e := Event(true, Some("+1.0E0\n"), 2.0, [120]);
            Iterate(p, Begin(Idle), e).1.None? && Iterate(p, Begin(Idle), e).0.key == 120
  {
    var p := Pacing(0, 1.0, 1, false);
    var e := Event(true, Some("+1.0E0\n"), 2.0, [120]);
    assert PolledKey(Begin(Idle), e) == Some(120);
    KeyOverridesTimeout(p, Begin(Idle), e);
  }
}

=== FILE: base.dfy ===
/** Small vocabulary shared by every module of the k2000 model. */
module Base {

  /** A value that may be absent, as a C pointer may be NULL. */
  datatype Option<+T> = None | Some(value: T)

  /** A byte read from the terminal. Keys are restricted to 7-bit ASCII, so the
      signed `char` the program stores them in never collides with its -1 sentinel. */
  type Key = k: int | 0 <= k < 128

  /** The character that ends every C string. */
  const NUL: char := '\0'

  const CR: char := '\r'
  const LF: char := '\n'

  /** The escape key; also the value the timeout writes into the loop's key variable. */
  const ESC: Key := 27

  /** The quit key. */
  const QuitKey: Key := 113  // 'q'

  /** Concatenation is associative; stated once so proofs can name the regrouping. */
  lemma AppendAssociative<T>(a: seq<T>, b: seq<T>, c: seq<T>)
    ensures (a + b) + c == a + (b + c)
  {
  }
}

=== FILE: command_line.dfy ===
/** The option loop of `main`: each letter `GetOpt` returns is applied to the
    settings, with the range checks that end the program with status 1. */
module CommandLine {
  import opened Base
  import opened CString
  import opened OptionParser
  import opened OptionParserFacts
  import opened Instrument

  /** The option string `main` hands to `GetOpt`. */
  const OptionLetters: string := "hfnda:w:t:T:m:c:g:"

  /** The letters listed in `OptionLetters` with a ':' after them. */
  predicate IsArgumentLetter(ch: char) {
    ch == 'a' || ch == 'w' || ch == 't' || ch == 'T' || ch == 'm' || ch == 'c' || ch == 'g'
  }

  /** The letters the `switch` has a case for, other than '~'. */
  predicate IsKnownLetter(ch: char) {
    ch == 'h' || ch == 'f' || ch == 'n' || ch == 'd' || IsArgumentLetter(ch)
  }

  /** The variables the options set: GPIB address, mode, delay in 0.1 s, timeout in
      minutes, flush cadence in samples, display and graph flags, overwrite flag, comment. */
  datatype Settings = Settings(
    pad: int, mode: int, delay: int, tstop: real, flushEvery: int,
    display: bool, graph: bool, overwrite: bool, comment: string)

  /** The initial values of those variables. */
  const Defaults: Settings := Settings(16, 0, 10, 0.0, 100, true, true, false, "")

  /** The ranges `main` enforces: address 0..30, mode 0..5, delay 0..600, timeout not negative. */
  predicate InRange(s: Settings) {
    && 0 <= s.pad <= 30
    && ValidMode(s.mode)
    && 0 <= s.delay <= 600
    && s.tstop >= 0.0
  }

  /** What `sscanf` makes of an argument: the number converted, or None when
      nothing was converted and the variable keeps its value. */
  datatype Scanners = Scanners(asInt: string -> Option<int>, asReal: string -> Option<real>)

  /** Where the option loop leaves the program: carry on with these settings,
      print the help text and return 0, or return 1. */
  datatype Verdict = Proceed(settings: Settings) | ShowHelp | Refuse

  /** How `main` launches: with settings and the data file, or by returning a status. */
  datatype Launch = Launch(settings: Settings, file: string) | ExitWith(status: int)

  function Scanned<T>(scan: Option<T>, old_value: T): T {
    if scan.Some? then scan.value else old_value
  }

  /** The characters of `OptionLetters`, one by one. */
  lemma OptionLettersSpelled()
    ensures |OptionLetters| == 18
    ensures OptionLetters[0] == 'h' && OptionLetters[1] == 'f' && OptionLetters[2] == 'n'
    ensures OptionLetters[3] == 'd' && OptionLetters[4] == 'a' && OptionLetters[5] == ':'
    ensures OptionLetters[6] == 'w' && OptionLetters[7] == ':' && OptionLetters[8] == 't'
    ensures OptionLetters[9] == ':' && OptionLetters[10] == 'T' && OptionLetters[11] == ':'
    ensures OptionLetters[12] == 'm' && OptionLetters[13] == ':' && OptionLetters[14] == 'c'
    ensures OptionLetters[15] == ':' && OptionLetters[16] == 'g' && OptionLetters[17] == ':'
  {
  }

  /** Every argument letter is followed by ':' where `strchr` finds it. */
  lemma ArgumentLetterTakesArgument(ch: char)
    requires IsArgumentLetter(ch)
    ensures TakesArgument(OptionLetters, ch)
  {
    var k :=
      if ch == 'a' then 4 else if ch == 'w' then 6 else if ch == 't' then 8 else if ch == 'T' then 10
      else if ch == 'm' then 12 else if ch == 'c' then 14 else 16;
    OptionLettersSpelled();
    forall j | 0 <= j < k ensures OptionLetters[j] != ch {
      OptionLettersSpelled();
    }
    FirstOccurrenceAt(OptionLetters, ch, k);
  }

  lemma ArgumentLettersTakeArguments()
    ensures NulFree(OptionLetters)
    ensures forall ch :: IsArgumentLetter(ch) ==> TakesArgument(OptionLetters, ch)
  {
    forall ch | IsArgumentLetter(ch) ensures TakesArgument(OptionLetters, ch) {
      ArgumentLetterTakesArgument(ch);
    }
  }

  /** One pass through the `switch` of the option loop. */
  function Apply(s: Settings, ch: char, optarg: Option<string>, scan: Scanners): (r: Verdict)
    requires IsArgumentLetter(ch) ==> optarg.Some?
    ensures r.ShowHelp? <==> ch == 'h'
    ensures !IsKnownLetter(ch) ==> r == Refuse
    ensures r == Refuse ==> !IsKnownLetter(ch) || ch == 'a' || ch == 't' || ch == 'T' || ch == 'm'
    ensures InRange(s) && r.Proceed? ==> InRange(r.settings)
    // a value `sscanf` does not convert leaves the setting as it was
    ensures InRange(s) && (ch == 'a' || ch == 't' || ch == 'm') && scan.asInt(optarg.value).None? ==> r == Proceed(s)
    ensures InRange(s) && ch == 'T' && scan.asReal(optarg.value).None? ==> r == Proceed(s)
  {
    match ch
    case 'h' => ShowHelp
    case 'f' => Proceed(s.(overwrite := true))
    case 'n' => Proceed(s.(graph := false))
    case 'd' => Proceed(s.(display := false))
    case 'c' =>
      var line := Line(optarg.value);
      Proceed(if |line| > 0 then s.(comment := line) else s)
    case 'g' => Proceed(s)
    case 'w' => Proceed(s.(flushEvery := Scanned(scan.asInt(optarg.value), s.flushEvery)))
    case 'a' =>
      var pad := Scanned(scan.asInt(optarg.value), s.pad);
      if pad < 0 || pad > 30 then Refuse else Proceed(s.(pad := pad))
    case 't' =>
      var delay := Scanned(scan.asInt(optarg.value), s.delay);
      if delay < 0 || delay > 600 then Refuse else Proceed(s.(delay := delay))
    case 'T' =>
      var tstop := Scanned(scan.asReal(optarg.value), s.tstop);
      if tstop < 0.0 then Refuse else Proceed(s.(tstop := tstop))
    case 'm' =>
      var mode := Scanned(scan.asInt(optarg.value), s.mode);
      if mode < 0 || mode > 5 then Refuse else Proceed(s.(mode := mode))
    case _ => Refuse
  }

  /** `t` differs from `s` at most in the one setting that the letter `ch` sets. */
  predicate ChangesOnlyOwnSetting(s: Settings, t: Settings, ch: char) {
    && (ch != 'a' ==> t.pad == s.pad)
    && (ch != 'm' ==> t.mode == s.mode)
    && (ch != 't' ==> t.delay == s.delay)
    && (ch != 'T' ==> t.tstop == s.tstop)
    && (ch != 'w' ==> t.flushEvery == s.flushEvery)
    && (ch != 'd' ==> t.display == s.display)
    && (ch != 'n' ==> t.graph == s.graph)
    && (ch != 'f' ==> t.overwrite == s.overwrite)
    && (ch != 'c' ==> t.comment == s.comment)
  }

  /** Each letter changes at most its own setting. */
  lemma ApplyChangesOnlyOwnSetting(s: Settings, ch: char, optarg: Option<string>, scan: Scanners)
    requires IsArgumentLetter(ch) ==> optarg.Some?
    ensures var r := Apply(s, ch, optarg, scan);
            r.Proceed? ==> ChangesOnlyOwnSetting(s, r.settings, ch)
  {
    if IsArgumentLetter(ch) {
      ApplyChecksRanges(s, ch, optarg, scan);
    } else {
      ApplySetsFlags(s, ch, optarg, scan);
    }
  }

  /** The range checks of `-a`, `-t`, `-m` and `-T`: a converted value outside its
      range refuses, one inside is stored. */
  lemma ApplyChecksRanges(s: Settings, ch: char, optarg: Option<string>, scan: Scanners)
    requires IsArgumentLetter(ch) ==> optarg.Some?
    ensures var r := Apply(s, ch, optarg, scan);
            ch == 'a' && scan.asInt(optarg.value).Some? ==>
              var v := scan.asInt(optarg.value).value;
              (r == Refuse <==> v < 0 || v > 30) && (r.Proceed? ==> r.settings == s.(pad := v))
    ensures var r := Apply(s, ch, optarg, scan);
            ch == 't' && scan.asInt(optarg.value).Some? ==>
              var v := scan.asInt(optarg.value).value;
              (r == Refuse <==> v < 0 || v > 600) && (r.Proceed? ==> r.settings == s.(delay := v))
    ensures var r := Apply(s, ch, optarg, scan);
            ch == 'm' && scan.asInt(optarg.value).Some? ==>
              var v := scan.asInt(optarg.value).value;
              (r == Refuse <==> !ValidMode(v)) && (r.Proceed? ==> r.settings == s.(mode := v))
    ensures var r := Apply(s, ch, optarg, scan);
            ch == 'T' && scan.asReal(optarg.value).Some? ==>
              var v := scan.asReal(optarg.value).value;
              (r == Refuse <==> v < 0.0) && (r.Proceed? ==> r.settings == s.(tstop := v))
  {
  }

  /** The options that only set a flag or a number: `-f` forces overwriting, `-n`
      turns the plot off, `-d` blanks the display, `-w` takes the flush cadence
      `sscanf` converts (or keeps the old one), and `-g` changes no setting. */
  lemma ApplySetsFlags(s: Settings, ch: char, optarg: Option<string>, scan: Scanners)
    requires IsArgumentLetter(ch) ==> optarg.Some?
    ensures ch == 'f' ==> Apply(s, ch, optarg, scan) == Proceed(s.(overwrite := true))
    ensures ch == 'n' ==> Apply(s, ch, optarg, scan) == Proceed(s.(graph := false))
    ensures ch == 'd' ==> Apply(s, ch, optarg, scan) == Proceed(s.(display := false))
    ensures ch == 'w' ==>
              Apply(s, ch, optarg, scan) == Proceed(s.(flushEvery := Scanned(scan.asInt(optarg.value), s.flushEvery)))
    ensures ch == 'g' ==> Apply(s, ch, optarg, scan) == Proceed(s)
  {
  }

  /** A refusal of an argument letter from settings in range means `sscanf`
      converted a value; `-c` sets the comment to its cleaned argument, unless
      that is empty, and changes nothing else. */
  lemma ApplyRefusalCause(s: Settings, ch: char, optarg: Option<string>, scan: Scanners)
    requires IsArgumentLetter(ch) ==> optarg.Some?
    ensures var r := Apply(s, ch, optarg, scan);
            IsArgumentLetter(ch) && InRange(s) && r.Refuse? ==>
              (if ch == 'T' then scan.asReal(optarg.value).Some? else scan.asInt(optarg.value).Some?)
    ensures var r := Apply(s, ch, optarg, scan);
            ch == 'c' ==>
              r == Proceed(if Line(optarg.value) == "" then s else s.(comment := Line(optarg.value)))
  {
  }

  /** `while ((key = GetOpt(...)) != EOF) switch (key) ...`: the verdict, and the
      value of `optind` when the loop ends. */
  function Options(argv: seq<string>, p: Parser, s: Settings, scan: Scanners): (r: (Verdict, int))
    requires Arguments(argv) && Valid(argv, p)
    ensures NulFree(OptionLetters)
    ensures InRange(s) && r.0.Proceed? ==> InRange(r.0.settings)
    ensures r.1 >= p.optind
    // going on: the settings are those the letters before EOF set, one by one
    ensures r.0.Proceed? ==>
              exists q :: LoopReaches(argv, p, s, scan, q, r.0.settings) && GetOpt(argv, OptionLetters, q) == Eof(r.1)
    decreases ArgsLeft(argv, p), CharsLeft(argv, p)
  {
    ArgumentLettersTakeArguments();
    var step := GetOpt(argv, OptionLetters, p);
    assert LoopReaches(argv, p, s, scan, p, s);
    match step.reply
    case EndOfOptions => (Proceed(s), step.next.optind)
    case BadOption => (Refuse, step.next.optind)
    case Letter(ch) =>
      match Apply(s, ch, step.optarg, scan)
      case Proceed(s') =>
        var rest := Options(argv, step.next, s', scan);
        assert rest.0.Proceed? ==>
                 exists q :: LoopReaches(argv, p, s, scan, q, rest.0.settings) && GetOpt(argv, OptionLetters, q) == Eof(rest.1) by {
          if rest.0.Proceed? {
            var q :| LoopReaches(argv, step.next, s', scan, q, rest.0.settings) && GetOpt(argv, OptionLetters, q) == Eof(rest.1);
            assert LoopReaches(argv, p, s, scan, q, rest.0.settings);
          }
        }
        rest
      case v => (v, step.next.optind)
  }

  /** The option loop, started at `p` with settings `s`, arrives at `q` with
      settings `t`: every call on the way returned a letter that `Apply` let
      through, and its settings are the ones the next call starts from. */
  predicate LoopReaches(argv: seq<string>, p: Parser, s: Settings, scan: Scanners, q: Parser, t: Settings)
    requires Arguments(argv) && Valid(argv, p)
    ensures LoopReaches(argv, p, s, scan, q, t) ==> Valid(argv, q)
    decreases ArgsLeft(argv, p), CharsLeft(argv, p)
  {
    ArgumentLettersTakeArguments();
    var step := GetOpt(argv, OptionLetters, p);
    || (p == q && s == t)
    || (&& step.reply.Letter?
        && Apply(s, step.reply.ch, step.optarg, scan).Proceed?
        && LoopReaches(argv, step.next, Apply(s, step.reply.ch, step.optarg, scan).settings, scan, q, t))
  }

  /** Once the loop has arrived at `q` with settings `t`, it ends as it would
      have ended started there. */
  lemma {:induction false} OptionsAfter(argv: seq<string>, p: Parser, s: Settings, scan: Scanners, q: Parser, t: Settings)
    requires Arguments(argv) && Valid(argv, p) && LoopReaches(argv, p, s, scan, q, t)
    ensures Options(argv, p, s, scan) == Options(argv, q, t, scan)
    decreases ArgsLeft(argv, p), CharsLeft(argv, p)
  {
    if !(p == q && s == t) {
      ArgumentLettersTakeArguments();
      var step := GetOpt(argv, OptionLetters, p);
      var s' := Apply(s, step.reply.ch, step.optarg, scan).settings;
      OptionsAfter(argv, step.next, s', scan, q, t);
    }
  }

  /** `-f` only ever sets overwriting, `-n` only ever clears the plot and `-d`
      only ever clears the display: no later letter undoes them. */
  lemma {:induction false} LoopKeepsFlags(argv: seq<string>, p: Parser, s: Settings, scan: Scanners, q: Parser, t: Settings)
    requires Arguments(argv) && Valid(argv, p) && LoopReaches(argv, p, s, scan, q, t)
    ensures s.overwrite ==> t.overwrite
    ensures !s.graph ==> !t.graph
    ensures !s.display ==> !t.display
    decreases ArgsLeft(argv, p), CharsLeft(argv, p)
  {
    if !(p == q && s == t) {
      ArgumentLettersTakeArguments();
      var step := GetOpt(argv, OptionLetters, p);
      ApplySetsFlags(s, step.reply.ch, step.optarg, scan);
      ApplyChangesOnlyOwnSetting(s, step.reply.ch, step.optarg, scan);
      var s' := Apply(s, step.reply.ch, step.optarg, scan).settings;
      LoopKeepsFlags(argv, step.next, s', scan, q, t);
    }
  }

  /** A reply that can end the option loop with status 1: '~', or a letter whose
      value is range-checked. */
  predicate MayRefuse(reply: Reply) {
    reply == BadOption || reply == Letter('a') || reply == Letter('t') || reply == Letter('T') || reply == Letter('m')
  }

  /** Every letter `GetOpt` can return from `OptionLetters` has a case. */
  lemma ListedLettersAreKnown(ch: char)
    requires ch in OptionLetters && ch != ':'
    ensures IsKnownLetter(ch)
  {
    OptionLettersSpelled();
  }

  /** The first call decides when it is not a letter that `Apply` lets through:
      '~', or a letter `Apply` refuses, ends the loop with Refuse, 'h' with
      ShowHelp, and EOF with the settings so far and the `optind` EOF left. */
  lemma OptionsStopsAt(argv: seq<string>, p: Parser, s: Settings, scan: Scanners)
    requires Arguments(argv) && Valid(argv, p)
    ensures NulFree(OptionLetters)
    ensures forall ch :: IsArgumentLetter(ch) ==> TakesArgument(OptionLetters, ch)
    ensures var step := GetOpt(argv, OptionLetters, p);
            var r := Options(argv, p, s, scan);
            && (step.reply == BadOption ==> r == (Refuse, step.next.optind))
            && (step.reply == EndOfOptions ==> r == (Proceed(s), step.next.optind))
            && (step.reply.Letter? && Apply(s, step.reply.ch, step.optarg, scan) == Refuse ==> r == (Refuse, step.next.optind))
            && (step.reply == Letter('h') ==> r == (ShowHelp, step.next.optind))
  {
    ArgumentLettersTakeArguments();
  }

  /** Why the option loop ended: help only after `GetOpt` returned 'h', refusal only
      after '~' or a range-checked letter, and going on only after EOF, whose
      `optind` is the one returned. */
  lemma {:induction false} OptionsVerdict(argv: seq<string>, p: Parser, s: Settings, scan: Scanners)
    requires Arguments(argv) && Valid(argv, p)
    ensures NulFree(OptionLetters)
    ensures var r := Options(argv, p, s, scan);
            r.0.ShowHelp? ==> exists q :: Reaches(argv, OptionLetters, p, q) && GetOpt(argv, OptionLetters, q).reply == Letter('h')
    ensures var r := Options(argv, p, s, scan);
            r.0.Refuse? ==> exists q :: Reaches(argv, OptionLetters, p, q) && MayRefuse(GetOpt(argv, OptionLetters, q).reply)
    ensures var r := Options(argv, p, s, scan);
            r.0.Proceed? ==> exists q :: Reaches(argv, OptionLetters, p, q) && GetOpt(argv, OptionLetters, q) == Eof(r.1)
    decreases ArgsLeft(argv, p), CharsLeft(argv, p)
  {
    ArgumentLettersTakeArguments();
    var step := GetOpt(argv, OptionLetters, p);
    var r := Options(argv, p, s, scan);
    assert Reaches(argv, OptionLetters, p, p);
    if step.reply.Letter? {
      var ch := step.reply.ch;
      ListedLettersAreKnown(ch);
      var v := Apply(s, ch, step.optarg, scan);
      if v.Proceed? {
        assert r == Options(argv, step.next, v.settings, scan);
        OptionsVerdict(argv, step.next, v.settings, scan);
        if r.0.ShowHelp? {
          var q :| Reaches(argv, OptionLetters, step.next, q) && GetOpt(argv, OptionLetters, q).reply == Letter('h');
          assert Reaches(argv, OptionLetters, p, q);
        } else if r.0.Refuse? {
          var q :| Reaches(argv, OptionLetters, step.next, q) && MayRefuse(GetOpt(argv, OptionLetters, q).reply);
          assert Reaches(argv, OptionLetters, p, q);
        } else {
          var q :| Reaches(argv, OptionLetters, step.next, q) && GetOpt(argv, OptionLetters, q) == Eof(r.1);
          assert Reaches(argv, OptionLetters, p, q);
        }
      }
    }
  }

  /** From `Start`, the loop goes on only with `optind` at 1 or more, and, when it
      is inside `argv`, at an argument that follows the options. */
  lemma OptionsEnd(argv: seq<string>, scan: Scanners)
    requires Arguments(argv)
    ensures var r := Options(argv, Start, Defaults, scan);
            r.0.Proceed? ==> r.1 >= 1 && (r.1 < |argv| ==> FollowsOptions(argv, r.1))
  {
    var r := Options(argv, Start, Defaults, scan);
    OptionsVerdict(argv, Start, Defaults, scan);
    if r.0.Proceed? {
      var q :| Reaches(argv, OptionLetters, Start, q) && GetOpt(argv, OptionLetters, q) == Eof(r.1);
      ReachesKeepsSettled(argv, OptionLetters, Start, q);
      EndOfOptionsAt(argv, OptionLetters, q);
    }
  }

  /** What a command line does once the loop from `Start` has arrived at `q` with
      settings `t`: '~' there, or a letter `Apply` refuses, returns 1; 'h' returns 0;
      EOF launches with `t` and the argument at `optind`, or returns 1 when there
      is none. */
  lemma CommandLineOutcome(argv: seq<string>, scan: Scanners, q: Parser, t: Settings)
    requires Arguments(argv) && LoopReaches(argv, Start, Defaults, scan, q, t)
    ensures NulFree(OptionLetters)
    ensures forall ch :: IsArgumentLetter(ch) ==> TakesArgument(OptionLetters, ch)
    ensures var step := GetOpt(argv, OptionLetters, q);
            var r := ReadCommandLine(argv, scan);
            && (step.reply == BadOption ==> r == ExitWith(1))
            && (step.reply == Letter('h') ==> r == ExitWith(0))
            && (step.reply.Letter? && Apply(t, step.reply.ch, step.optarg, scan) == Refuse ==> r == ExitWith(1))
            && (step.reply.EndOfOptions? ==>
                  r == if step.next.optind < |argv| then Launch(t, argv[step.next.optind]) else ExitWith(1))
  {
    ArgumentLettersTakeArguments();
    OptionsAfter(argv, Start, Defaults, scan, q, t);
    OptionsStopsAt(argv, q, t, scan);
  }

  /** A loop that reads `-f`, `-n` or `-d` at `q` and goes on ends, if it goes on,
      with that flag in its settings. */
  lemma OptionsKeepFlags(argv: seq<string>, q: Parser, t: Settings, scan: Scanners)
    requires Arguments(argv) && Valid(argv, q)
    ensures NulFree(OptionLetters)
    ensures var step := GetOpt(argv, OptionLetters, q);
            var r := Options(argv, q, t, scan);
            r.0.Proceed? ==>
              && (step.reply == Letter('f') ==> r.0.settings.overwrite)
              && (step.reply == Letter('n') ==> !r.0.settings.graph)
              && (step.reply == Letter('d') ==> !r.0.settings.display)
  {
    ArgumentLettersTakeArguments();
    var step := GetOpt(argv, OptionLetters, q);
    if step.reply.Letter? && step.reply.ch in "fnd" {
      ApplySetsFlags(t, step.reply.ch, step.optarg, scan);
      var t' := Apply(t, step.reply.ch, step.optarg, scan).settings;
      var out := Options(argv, step.next, t', scan);
      assert Options(argv, q, t, scan) == out;
      if out.0.Proceed? {
        var q' :| LoopReaches(argv, step.next, t', scan, q', out.0.settings) && GetOpt(argv, OptionLetters, q') == Eof(out.1);
        LoopKeepsFlags(argv, step.next, t', scan, q', out.0.settings);
      }
    }
  }

  /** `-f`, `-n` and `-d` anywhere among the options the loop reads hold in the
      settings the program launches with. */
  lemma LaunchKeepsFlags(argv: seq<string>, scan: Scanners, q: Parser, t: Settings)
    requires Arguments(argv) && LoopReaches(argv, Start, Defaults, scan, q, t)
    ensures NulFree(OptionLetters)
    ensures var step := GetOpt(argv, OptionLetters, q);
            var r := ReadCommandLine(argv, scan);
            r.Launch? ==>
              && (step.reply == Letter('f') ==> r.settings.overwrite)
              && (step.reply == Letter('n') ==> !r.settings.graph)
              && (step.reply == Letter('d') ==> !r.settings.display)
  {
    ArgumentLettersTakeArguments();
    OptionsAfter(argv, Start, Defaults, scan, q, t);
    OptionsKeepFlags(argv, q, t, scan);
  }

  /** The `Options` postcondition from `Start`, in the shape `ReadCommandLine`
      states it; it keeps that function's proof small. */
  lemma LaunchedAfterEof(argv: seq<string>, scan: Scanners)
    requires Arguments(argv)
    ensures NulFree(OptionLetters)
    ensures var r := Options(argv, Start, Defaults, scan);
            r.0.Proceed? && r.1 < |argv| ==>
              exists q :: && LoopReaches(argv, Start, Defaults, scan, q, r.0.settings)
                          && GetOpt(argv, OptionLetters, q).reply.EndOfOptions?
                          && GetOpt(argv, OptionLetters, q).next.optind < |argv|
                          && GetOpt(argv, OptionLetters, q).next.optind == r.1
  {
    ArgumentLettersTakeArguments();
  }

  /** The command line up to the choice of the data file: `argv[optind]` must exist. */
  function ReadCommandLine(argv: seq<string>, scan: Scanners): (r: Launch)
    requires Arguments(argv)
    ensures NulFree(OptionLetters)
    ensures r.Launch? ==> InRange(r.settings)
    ensures r.Launch? ==> exists k :: 1 <= k < |argv| && argv[k] == r.file && FollowsOptions(argv, k)
    ensures r.Launch? ==>
              exists q :: Reaches(argv, OptionLetters, Start, q) && GetOpt(argv, OptionLetters, q).reply.EndOfOptions?
                          && GetOpt(argv, OptionLetters, q).next.optind < |argv|
                          && r.file == argv[GetOpt(argv, OptionLetters, q).next.optind]
    ensures r.Launch? ==>
              exists q :: && LoopReaches(argv, Start, Defaults, scan, q, r.settings)
                          && GetOpt(argv, OptionLetters, q).reply.EndOfOptions?
                          && GetOpt(argv, OptionLetters, q).next.optind < |argv|
                          && r.file == argv[GetOpt(argv, OptionLetters, q).next.optind]
    ensures r.ExitWith? ==> r.status == 0 || r.status == 1
    ensures r == ExitWith(0) ==>
              exists q :: Reaches(argv, OptionLetters, Start, q) && GetOpt(argv, OptionLetters, q).reply == Letter('h')
    ensures r == ExitWith(1) ==>
              exists q :: Reaches(argv, OptionLetters, Start, q)
                          && (|| MayRefuse(GetOpt(argv, OptionLetters, q).reply)
                              || (GetOpt(argv, OptionLetters, q).reply.EndOfOptions? && GetOpt(argv, OptionLetters, q).next.optind >= |argv|))
  {
    ArgumentLettersTakeArguments();
    OptionsVerdict(argv, Start, Defaults, scan);
    var (v, optind) := Options(argv, Start, Defaults, scan);
    match v
    case ShowHelp => ExitWith(0)
    case Refuse => ExitWith(1)
    case Proceed(s) =>
      if optind < |argv| then
        OptionsEnd(argv, scan);
        LaunchedAfterEof(argv, scan);
        Launch(s, argv[optind])
      else ExitWith(1)
  }
}

/** Three command lines worked through: `-m 7 FILE`, `-a 7 FILE` and `-f -a 99 FILE`. */
module CommandLineExamples {
  import opened Base
  import opened CString
  import opened OptionParser
  import OptionParserFacts
  import opened CommandLine

  /** A scanner that reads every argument as the number `v`. */
  function Always(v: int): Scanners {
    Scanners(_ => Some(v), _ => None)
  }

  /** `-x VALUE` with `x` a letter that `optionS` marks with ':': the first call
      returns `x`, takes the next element as its argument and moves `optind` past both. */
  lemma SeparateArgumentIn(argv: seq<string>, optionS: string, ch: char)
    requires Arguments(argv) && NulFree(optionS) && |argv| >= 3 && argv[1] == [SW, ch]
    requires ch != SW && ch != ':' && TakesArgument(optionS, ch)
    ensures GetOpt(argv, optionS, Start) == Step(Letter(ch), Some(argv[2]), Parser(3, None))
  {
    SeparateArgumentAt(argv, optionS, 1, ch);
  }

  /** `-x VALUE` as the `k`-th element, read from a fresh cluster: `x` is returned
      with VALUE, and `optind` moves past both. */
  lemma SeparateArgumentAt(argv: seq<string>, optionS: string, k: nat, ch: char)
    requires Arguments(argv) && NulFree(optionS) && 1 <= k && k + 1 < |argv| && argv[k] == [SW, ch]
    requires ch != SW && ch != ':' && TakesArgument(optionS, ch)
    ensures GetOpt(argv, optionS, Parser(k, None)) == Step(Letter(ch), Some(argv[k + 1]), Parser(k + 2, None))
  {
    var a := argv[k];
    assert CharAt(a, 0) == SW && CharAt(a, 1) == ch && CharAt(a, 2) == NUL;
    assert ch != NUL by { assert NulFree(argv[k]); }
    OptionParserFacts.LetterSemantics(argv, optionS, Parser(k, None));
  }

  /** `-x` alone as the first element, with `x` a listed letter that takes no
      argument: `x` is returned, and `optind` moves to the next element. */
  lemma FlagFirst(argv: seq<string>, optionS: string, ch: char)
    requires Arguments(argv) && NulFree(optionS) && |argv| >= 2 && argv[1] == [SW, ch]
    requires ch != SW && ch != ':' && ch in optionS && !TakesArgument(optionS, ch)
    ensures GetOpt(argv, optionS, Start) == Step(Letter(ch), None, Parser(2, None))
  {
    var a := argv[1];
    assert CharAt(a, 0) == SW && CharAt(a, 1) == ch && CharAt(a, 2) == NUL;
    assert ch != NUL by { assert NulFree(argv[1]); }
    OptionParserFacts.LetterSemantics(argv, optionS, Start);
  }

  /** `-f` is listed and takes no argument. */
  lemma ForceIsAFlag()
    ensures 'f' in OptionLetters && !TakesArgument(OptionLetters, 'f')
  {
    OptionLettersSpelled();
    OptionParserFacts.FirstOccurrenceAt(OptionLetters, 'f', 1);
  }

  /** The same for the program's own option string. */
  lemma SeparateArgument(argv: seq<string>, ch: char)
    requires Arguments(argv) && |argv| >= 3 && argv[1] == [SW, ch] && IsArgumentLetter(ch)
    ensures GetOpt(argv, OptionLetters, Start) == Step(Letter(ch), Some(argv[2]), Parser(3, None))
  {
    ArgumentLettersTakeArguments();
    SeparateArgumentIn(argv, OptionLetters, ch);
  }

  /** `k2000 -m 7 ...`: mode 7 is out of range, the program returns 1 whatever follows. */
  lemma ModeOutOfRangeRefused(argv: seq<string>)
    requires Arguments(argv) && |argv| >= 3 && argv[1] == "-m"
    ensures ReadCommandLine(argv, Always(7)) == ExitWith(1)
  {
    SeparateArgument(argv, 'm');
    ApplyChecksRanges(Defaults, 'm', Some(argv[2]), Always(7));
  }

  /** An argument not starting with '-', met at a fresh cluster, ends the options
      with the settings as they are and `optind` at that argument. */
  lemma FileEndsOptions(argv: seq<string>, k: nat, s: Settings, scan: Scanners)
    requires Arguments(argv) && k < |argv| && CharAt(argv[k], 0) != SW
    ensures Options(argv, Parser(k, None), s, scan) == (Proceed(s), k)
  {
    assert GetOpt(argv, OptionLetters, Parser(k, None)) == Eof(k);
  }

  /** `k2000 -a 7 FILE`: address 7 is accepted and `FILE` is the data file. */
  lemma AddressAccepted(argv: seq<string>)
    requires Arguments(argv) && |argv| == 4 && argv[1] == "-a" && CharAt(argv[3], 0) != SW
    ensures ReadCommandLine(argv, Always(7)) == Launch(Defaults.(pad := 7), argv[3])
  {
    var s := Defaults.(pad := 7);
    SeparateArgument(argv, 'a');
    ApplyChecksRanges(Defaults, 'a', Some(argv[2]), Always(7));
    FileEndsOptions(argv, 3, s, Always(7));
  }

  /** `k2000 -f -a 99 FILE`: `-f` is read and applied, then address 99 is out of
      range, so the program returns 1 although a data file follows. */
  lemma ForcedThenBadAddress(argv: seq<string>)
    requires Arguments(argv) && |argv| >= 4 && argv[1] == "-f" && argv[2] == "-a"
    ensures ReadCommandLine(argv, Always(99)) == ExitWith(1)
  {
    var scan := Always(99);
    var t := Defaults.(overwrite := true);
    var q := Parser(2, None);
    ArgumentLettersTakeArguments();
    ForceIsAFlag();
    FlagFirst(argv, OptionLetters, 'f');
    ApplySetsFlags(Defaults, 'f', None, scan);
    assert LoopReaches(argv, q, t, scan, q, t);
    assert LoopReaches(argv, Start, Defaults, scan, q, t);
    SeparateArgumentAt(argv, OptionLetters, 2, 'a');
    ApplyChecksRanges(t, 'a', Some(argv[3]), scan);
    CommandLineOutcome(argv, scan, q, t);
  }
}

=== FILE: cstring.dfy ===
/** C strings as Dafny strings, and the program's `strclean`. */
module CString {
  import opened Base

  /** A C string cannot contain NUL: the string ends there. */
  predicate NulFree(s: string) {
    forall i :: 0 <= i < |s| ==> s[i] != NUL
  }

  /** The longest prefix of `s` that holds none of the characters in `stops`. */
  function PrefixBefore(s: string, stops: set<char>): (r: string)
    ensures r <= s
    ensures forall i :: 0 <= i < |r| ==> r[i] !in stops
    ensures |r| < |s| ==> s[|r|] in stops
  {
    if |s| == 0 || s[0] in stops then "" else [s[0]] + PrefixBefore(s[1..], stops)
  }

  /** The three properties of `PrefixBefore` pin the result down: any prefix
      without stop characters that ends at a stop character or at the end of `s` is it:
      a shorter or a longer one would have a stop character where the other has none. */
  lemma PrefixBeforeUnique(s: string, stops: set<char>, t: string)
    requires t <= s
    requires forall i :: 0 <= i < |t| ==> t[i] !in stops
    requires |t| < |s| ==> s[|t|] in stops
    ensures t == PrefixBefore(s, stops)
  {
  }

  /** What C reads from a buffer: everything up to the first NUL. */
  function CStr(s: string): (r: string)
    ensures r <= s && NulFree(r)
    ensures |r| < |s| ==> s[|r|] == NUL
  {
    PrefixBefore(s, {NUL})
  }

  /** The line `strclean` leaves in its buffer: the text before the first CR or LF. */
  function Line(s: string): (r: string)
    ensures r <= s
    ensures forall i :: 0 <= i < |r| ==> r[i] != CR && r[i] != LF
    ensures |r| < |s| ==> s[|r|] == CR || s[|r|] == LF
  {
    PrefixBefore(s, {CR, LF})
  }

  /** Cleaning a line that is already clean changes nothing. */
  lemma LineIdempotent(s: string)
    ensures Line(Line(s)) == Line(s)
  {
    var r := Line(s);
    PrefixBeforeUnique(r, {CR, LF}, r);
  }

  /** A line without CR or LF is its own cleaned form. */
  lemma LineOfCleanText(s: string)
    requires forall i :: 0 <= i < |s| ==> s[i] != CR && s[i] != LF
    ensures Line(s) == s
  {
    PrefixBeforeUnique(s, {CR, LF}, s);
  }

  /** `strclean`: scans the buffer for the first CR or LF, cuts the string there,
      and returns the new length. */
  method StrClean(buf: string) returns (cleaned: string, len: nat)
    requires NulFree(buf)
    ensures cleaned <= buf
    ensures forall i :: 0 <= i < |cleaned| ==> cleaned[i] != CR && cleaned[i] != LF
    ensures |cleaned| < |buf| ==> buf[|cleaned|] == CR || buf[|cleaned|] == LF
    ensures (forall i :: 0 <= i < |buf| ==> buf[i] != CR && buf[i] != LF) ==> cleaned == buf
    ensures cleaned == Line(buf)
    ensures len == |cleaned|
  {
    cleaned := buf;
    var i := 0;
    while i < |buf|
      invariant 0 <= i <= |buf|
      invariant cleaned == buf
      invariant forall k :: 0 <= k < i ==> buf[k] != CR && buf[k] != LF
    {
      if buf[i] == LF || buf[i] == CR {
        cleaned := buf[..i];
        break;
      }
      i := i + 1;
    }
    PrefixBeforeUnique(buf, {CR, LF}, cleaned);
    len := |cleaned|;
  }
}

=== FILE: instrument.dfy ===
/** The Keithley 2000's command vocabulary as the program uses it: the mode table,
    the command strings, the reply clean-up, and the configuration sequence sent
    before acquisition starts. */
module Instrument {
  import opened Base
  import opened CString

  /** Size of the program's text buffers. */
  const MaxLen: nat := 127

  /** SCPI function names, indexed by the `-m` mode number. */
  const ScpiModes: seq<string> := ["volt:dc", "curr:dc", "res", "temp", "cont", "diod"]

  /** y-axis labels for the live plot, indexed by the same mode number. */
  const YLabels: seq<string> := ["V", "mA", "Ohm", "degrees C", "Ohm", "mV"]

  predicate ValidMode(mode: int) {
    0 <= mode < |ScpiModes|
  }

  const ResetCommand: string := "*rst;*cls;:form:elem read,unit;*opc"
  const IdentityQuery: string := "*idn?"
  const BlankDisplayCommand: string := ":DISP:TEXT:DATA '-ACQUIRING- ';:DISP:TEXT:STAT 1"
  const RestoreDisplayCommand: string := ":DISP:TEXT:STAT 0"
  const ReadCommand: string := ":read?"
  const PresetCommand: string := "syst:pres"

  const FuncPrefix: string := ":func '"
  const FuncSuffix: string := "';:init; *opc\n"

  /** The literal the instrument answers when the input is out of range. */
  const OverflowSentinel: string := "+9.9E37"
  /** What is logged instead of it. */
  const OverflowText: string := "OVERFLOW"

  /** Both tables have one entry per mode. */
  lemma TablesAreTotal()
    ensures |ScpiModes| == |YLabels| == 6
    ensures forall m :: ValidMode(m) <==> 0 <= m <= 5
  {
  }

  /** Distinct modes select distinct instrument functions. */
  lemma ModeNamesDistinct()
    ensures forall i, j :: 0 <= i < j < |ScpiModes| ==> ScpiModes[i] != ScpiModes[j]
  {
    // the first two letters already differ
    assert ScpiModes[0][0] == 'v' && ScpiModes[0][1] == 'o';
    assert ScpiModes[1][0] == 'c' && ScpiModes[1][1] == 'u';
    assert ScpiModes[2][0] == 'r' && ScpiModes[2][1] == 'e';
    assert ScpiModes[3][0] == 't' && ScpiModes[3][1] == 'e';
    assert ScpiModes[4][0] == 'c' && ScpiModes[4][1] == 'o';
    assert ScpiModes[5][0] == 'd' && ScpiModes[5][1] == 'i';
  }

  /** The plot labels do not tell the modes apart: resistance and continuity share "Ohm". */
  lemma LabelsNotDistinct()
    ensures YLabels[2] == YLabels[4] && ScpiModes[2] != ScpiModes[4]
  {
  }

  /** The first position of `name` in `table` at or after `from`. */
  function Find(table: seq<string>, name: string, from: nat): (r: Option<nat>)
    requires from <= |table|
    ensures r.Some? ==> from <= r.value < |table| && table[r.value] == name
    ensures r.None? <==> forall k :: from <= k < |table| ==> table[k] != name
    decreases |table| - from
  {
    if from == |table| then None
    else if table[from] == name then Some(from)
    else Find(table, name, from + 1)
  }

  /** The `:func` command selecting `mode` and starting continuous acquisition. */
  function FuncCommand(mode: int): (cmd: string)
    requires ValidMode(mode)
    ensures |FuncPrefix| + |FuncSuffix| < |cmd| < MaxLen
    ensures FuncPrefix <= cmd
    ensures cmd[|cmd| - |FuncSuffix|..] == FuncSuffix
  {
    FuncPrefix + ScpiModes[mode] + FuncSuffix
  }

  /** Which mode a `:func` command selects, read back from its text. */
  function ModeOfCommand(cmd: string): (r: Option<nat>)
    ensures r.Some? ==> ValidMode(r.value)
  {
    if |cmd| >= |FuncPrefix| + |FuncSuffix| && cmd[..|FuncPrefix|] == FuncPrefix
       && cmd[|cmd| - |FuncSuffix|..] == FuncSuffix
    then Find(ScpiModes, cmd[|FuncPrefix|..|cmd| - |FuncSuffix|], 0)
    else None
  }

  /** The command names exactly the mode's function, so the mode can be read back from it. */
  lemma FuncCommandRoundTrip(mode: int)
    requires ValidMode(mode)
    ensures ModeOfCommand(FuncCommand(mode)) == Some(mode)
  {
    var cmd := FuncCommand(mode);
    var name := ScpiModes[mode];
    assert cmd[..|FuncPrefix|] == FuncPrefix;
    assert cmd[|FuncPrefix|..|cmd| - |FuncSuffix|] == name;
    ModeNamesDistinct();
    var r := Find(ScpiModes, name, 0);
    assert r.Some?;
  }

  /** The text of a reply of `ibcnt` bytes once the program has overwritten its
      last byte (the LF) with NUL: the reply without its last byte, up to the
      first NUL, if any, before it. */
  function Received(raw: seq<char>): (text: string)
    requires |raw| >= 1
    ensures text <= raw[..|raw| - 1] && NulFree(text)
    ensures |text| < |raw| - 1 ==> raw[|text|] == NUL
    ensures NulFree(raw[..|raw| - 1]) ==> text == raw[..|raw| - 1]
  {
    CStr(raw[..|raw| - 1])
  }

  /** The reading that is logged: the overflow sentinel is replaced by
      "OVERFLOW"; every other reply is logged as received. */
  function Reading(raw: seq<char>): (text: string)
    requires |raw| >= 1
    ensures Received(raw) == OverflowSentinel ==> text == OverflowText
    ensures Received(raw) != OverflowSentinel ==> text == Received(raw)
    ensures text != OverflowSentinel
  {
    var t := Received(raw);
    if t == OverflowSentinel then OverflowText else t
  }

  /** When the instrument ends its reply with CR LF, as the comments beside the
      NUL store say it does, only the LF is removed: the CR stays, the text is not
      the sentinel, and an overflow is logged as "+9.9E37" followed by CR. */
  lemma CrLfOverflowKeepsCr()
    ensures Received("+9.9E37\r\n") == OverflowSentinel + "\r"
    ensures Reading("+9.9E37\r\n") == OverflowSentinel + "\r"
    ensures Reading("+9.9E37\r\n") != OverflowText
  {
    assert Received("+9.9E37\r\n") == OverflowSentinel + "\r";
  }

  /** The outcome of each bus operation during start-up: opening the device, then
      the reset, the identity query and its reply, the display blanking, and the
      function selection. A reply holds the `ibcnt` bytes read. */
  datatype StartupBus = StartupBus(
    deviceOk: bool, resetOk: bool, identityOk: bool, identityReply: Option<seq<char>>,
    blankOk: bool, funcOk: bool)

  /** `ibrd` into the identity buffer reads at least one and at most MaxLen - 1 bytes. */
  predicate WellFormedStartup(bus: StartupBus) {
    bus.identityReply.Some? ==> 1 <= |bus.identityReply.value| <= MaxLen - 1
  }

  /** After start-up: ready with the instrument's identity, or failed (exit status
      ERR_INST); either way, the commands written so far. */
  datatype Startup = Configured(identity: string, sent: seq<string>) | StartupFailed(sent: seq<string>)

  /** The commands start-up writes when nothing fails. */
  function StartupCommands(mode: int, display: bool): seq<string>
    requires ValidMode(mode)
  {
    [ResetCommand, IdentityQuery] + (if display then [] else [BlankDisplayCommand]) + [FuncCommand(mode)]
  }

  /** Open the device, reset it, read its identity, blank the display when asked,
      and select the measurement function; the first failure ends start-up. */
  function Configure(mode: int, display: bool, bus: StartupBus): (r: Startup)
    requires ValidMode(mode) && WellFormedStartup(bus)
    ensures r.sent <= StartupCommands(mode, display)
    ensures r.Configured? <==>
              bus.deviceOk && bus.resetOk && bus.identityOk && bus.identityReply.Some?
              && (display || bus.blankOk) && bus.funcOk
    ensures r.Configured? ==> r.sent == StartupCommands(mode, display)
    ensures r.Configured? ==> r.identity == Received(bus.identityReply.value)
  {
    if !bus.deviceOk then StartupFailed([])
    else if !bus.resetOk then StartupFailed([ResetCommand])
    else if !bus.identityOk then StartupFailed([ResetCommand, IdentityQuery])
    else if bus.identityReply.None? then StartupFailed([ResetCommand, IdentityQuery])
    else
      var identity := Received(bus.identityReply.value);
      var blanking := if display then [] else [BlankDisplayCommand];
      if !display && !bus.blankOk then StartupFailed([ResetCommand, IdentityQuery] + blanking)
      else if !bus.funcOk then StartupFailed(StartupCommands(mode, display))
      else Configured(identity, StartupCommands(mode, display))
  }
}

=== FILE: keyboard.dfy ===
/** The `kbhit`/`readch` pair: a one-key look-ahead (`peek_character`) in front
    of the bytes the terminal has ready. Switching the terminal mode is left out;
    a non-blocking `read` returns the first ready byte, or nothing. */
module Keyboard {
  import opened Base

  /** `peek` is `peek_character` (None for -1); `ready` the bytes waiting on stdin. */
  datatype Terminal = Terminal(peek: Option<Key>, ready: seq<Key>)

  /** Nothing held, nothing typed. */
  const Idle: Terminal := Terminal(None, [])

  /** The keys not yet handed out, in the order they will be handed out. */
  function Pending(t: Terminal): seq<Key> {
    (if t.peek.Some? then [t.peek.value] else []) + t.ready
  }

  /** The user types `keys`. */
  function Type(t: Terminal, keys: seq<Key>): (r: Terminal)
    ensures Pending(r) == Pending(t) + keys
  {
    t.(ready := t.ready + keys)
  }

  /** `kbhit`: true at once if a key is held; otherwise one non-blocking read of at
      most one byte, held if it arrived. */
  function KbHit(t: Terminal): (r: (bool, Terminal))
    ensures r.0 <==> Pending(t) != []
    ensures r.0 <==> r.1.peek.Some?
    ensures Pending(r.1) == Pending(t)
    ensures t.peek.Some? ==> r.1 == t
    ensures t.peek.None? ==> |r.1.ready| == |t.ready| - (if r.0 then 1 else 0)
  {
    if t.peek.Some? then (true, t)
    else if |t.ready| > 0 then (true, Terminal(Some(t.ready[0]), t.ready[1..]))
    else (false, t)
  }

  /** `readch`: the held key, emptying the hold; with nothing held, a blocking read
      (None when no byte will ever come). */
  function ReadCh(t: Terminal): (r: (Option<Key>, Terminal))
    ensures r.0.None? <==> Pending(t) == []
    ensures r.0.Some? ==> [r.0.value] + Pending(r.1) == Pending(t)
    ensures t.peek.Some? ==> r.0 == t.peek && r.1.ready == t.ready
    ensures r.1.peek.None?
  {
    if t.peek.Some? then (t.peek, Terminal(None, t.ready))
    else if |t.ready| > 0 then (Some(t.ready[0]), Terminal(None, t.ready[1..]))
    else (None, t)
  }

  /** `if (kbhit()) key = readch();`: the oldest pending key, if any; afterwards no
      key is held, so between polls the look-ahead is always empty. */
  function Poll(t: Terminal): (r: (Option<Key>, Terminal))
    ensures r.0.None? <==> Pending(t) == []
    ensures r.0.Some? ==> [r.0.value] + Pending(r.1) == Pending(t)
    ensures r.0.None? ==> r.1 == t
    ensures r.1.peek.None?
  {
    var (hit, t1) := KbHit(t);
    if hit then ReadCh(t1) else (None, t1)
  }

  /** Keys come out of repeated polls in the order they were typed: what the polls
      returned, followed by what is still pending, is exactly what was pending. */
  function PollMany(t: Terminal, n: nat): (r: (seq<Key>, Terminal))
    ensures r.0 + Pending(r.1) == Pending(t)
    ensures |r.0| == if n < |Pending(t)| then n else |Pending(t)|
    decreases n
  {
    if n == 0 then ([], t)
    else
      var (k, t1) := Poll(t);
      if k.None? then ([], t1)
      else
        var (rest, t2) := PollMany(t1, n - 1);
        ([k.value] + rest, t2)
  }
}

=== FILE: option_parser.dfy ===
/** `GetOpt`, the program's System V style command-line option parser, as a
    step function over an explicit parser state. */
module OptionParser {
  import opened Base
  import opened CString

  /** The switch character. */
  const SW: char := '-'

  /** What one call returns: an option letter, EOF, or the error character '~'. */
  datatype Reply = Letter(ch: char) | EndOfOptions | BadOption

  /** The static `letP` pointer: character `off` of `argv[arg]`. */
  datatype Cursor = Cursor(arg: nat, off: nat)

  /** The global `optind` and the static `letP` (None is NULL). */
  datatype Parser = Parser(optind: int, letP: Option<Cursor>)

  /** One call: the reply, the value left in the global `optarg`, and the next state. */
  datatype Step = Step(reply: Reply, optarg: Option<string>, next: Parser)

  /** `optind` starts at 1 and `letP` at NULL. */
  const Start: Parser := Parser(1, None)

  /** Every argument is a C string. */
  predicate Arguments(argv: seq<string>) {
    forall i :: 0 <= i < |argv| ==> NulFree(argv[i])
  }

  /** The states the parser can reach from `Start`: `optind` is a valid index or
      past the end, and `letP` points inside `argv[optind]`, or, after an argument
      letter that ended the command line, inside the last element. */
  predicate Valid(argv: seq<string>, p: Parser) {
    && p.optind >= 0
    && (p.letP.Some? ==>
          && p.letP.value.arg < |argv|
          && 1 <= p.letP.value.off <= |argv[p.letP.value.arg]|
          && (p.letP.value.arg == p.optind || p.optind >= |argv|))
  }

  /** Character `k` of a C string, NUL at and past its end. */
  function CharAt(s: string, k: nat): (c: char)
    ensures c == NUL <==> (k >= |s| || s[k] == NUL)
  {
    if k < |s| then s[k] else NUL
  }

  /** `strchr`: the first position of `c` in `s`. */
  function IndexOf(s: string, c: char): (k: nat)
    requires c in s
    ensures k < |s| && s[k] == c
    ensures forall j :: 0 <= j < k ==> s[j] != c
  {
    if s[0] == c then 0 else 1 + IndexOf(s[1..], c)
  }

  /** `ch` is listed in `optionS` and followed there by ':'. */
  predicate TakesArgument(optionS: string, ch: char) {
    ch in optionS && CharAt(optionS, IndexOf(optionS, ch) + 1) == ':'
  }

  /** Return to EOF: `optarg` and `letP` cleared. */
  function Eof(optind: int): Step {
    Step(EndOfOptions, None, Parser(optind, None))
  }

  /** The part of `GetOpt` after `letP` is known: read the letter at `c`. */
  function Scan(argv: seq<string>, optionS: string, optind: int, c: Cursor): Step
    requires c.arg < |argv| && optind >= 0
  {
    var a := argv[c.arg];
    var ch := CharAt(a, c.off);
    var after := c.off + 1;
    if ch == NUL then
      Eof(optind + 1)
    else if ch == ':' || ch !in optionS then
      Step(BadOption, None, Parser(optind, Some(Cursor(c.arg, after))))
    else if TakesArgument(optionS, ch) then
      if CharAt(a, after) == NUL then
        if |argv| <= optind + 1 then
          Step(BadOption, None, Parser(optind + 1, Some(Cursor(c.arg, after))))
        else
          Step(Letter(ch), Some(argv[optind + 1]), Parser(optind + 2, None))
      else
        Step(Letter(ch), Some(a[after..]), Parser(optind + 1, None))
    else if CharAt(a, after) == NUL then
      Step(Letter(ch), None, Parser(optind + 1, None))
    else
      Step(Letter(ch), None, Parser(optind, Some(Cursor(c.arg, after))))
  }

  /** The outer measure of parser progress: arguments not yet passed. */
  function ArgsLeft(argv: seq<string>, p: Parser): nat {
    if p.optind < |argv| then |argv| - p.optind else 0
  }

  /** The inner measure: characters of the current cluster not yet read. */
  function CharsLeft(argv: seq<string>, p: Parser): nat
    requires Valid(argv, p)
  {
    match p.letP
    case None => if p.optind < |argv| then |argv[p.optind]| + 1 else 0
    case Some(c) => |argv[c.arg]| - c.off
  }

  /** One call of `GetOpt(argc, argv, optionS)`. */
  function GetOpt(argv: seq<string>, optionS: string, p: Parser): (r: Step)
    requires Arguments(argv) && NulFree(optionS) && Valid(argv, p)
    // EOF, the three ways a new cluster can end the options
    ensures |argv| <= p.optind ==> r == Eof(p.optind)
    ensures p.optind < |argv| && p.letP.None? && CharAt(argv[p.optind], 0) != SW ==> r == Eof(p.optind)
    ensures p.optind < |argv| && p.letP.None? && CharAt(argv[p.optind], 0) == SW && CharAt(argv[p.optind], 1) == SW
            ==> r == Eof(p.optind + 1)
    // every EOF and every error leaves optarg NULL; a letter is never ':'
    ensures !r.reply.Letter? ==> r.optarg.None?
    ensures r.reply.Letter? ==> r.reply.ch != ':' && r.reply.ch != NUL && r.reply.ch in optionS
    ensures r.reply.Letter? ==> (r.optarg.Some? <==> TakesArgument(optionS, r.reply.ch))
    // optind only moves forward, by at most two
    ensures p.optind <= r.next.optind <= p.optind + 2
    ensures r.reply.EndOfOptions? ==> r.next.letP.None?
    ensures Valid(argv, r.next)
    // every letter is progress
    ensures r.reply.Letter? ==>
              ArgsLeft(argv, r.next) < ArgsLeft(argv, p)
              || (ArgsLeft(argv, r.next) == ArgsLeft(argv, p) && CharsLeft(argv, r.next) < CharsLeft(argv, p))
  {
    if |argv| <= p.optind then
      Eof(p.optind)
    else if p.letP.None? then
      var a := argv[p.optind];
      if CharAt(a, 0) != SW then
        Eof(p.optind)
      else if CharAt(a, 1) == SW then
        Eof(p.optind + 1)
      else
        Scan(argv, optionS, p.optind, Cursor(p.optind, 1))
    else
      Scan(argv, optionS, p.optind, p.letP.value)
  }
}

/** What `GetOpt` promises about the letter it reads, and its worked example. */
module OptionParserFacts {
  import opened Base
  import opened CString
  import opened OptionParser

  /** A call that will read a letter: `letP` is inside a cluster, or `argv[optind]`
      opens a new one with a single switch character. */
  predicate InCluster(argv: seq<string>, p: Parser) {
    && 0 <= p.optind < |argv|
    && (p.letP.None? ==> CharAt(argv[p.optind], 0) == SW && CharAt(argv[p.optind], 1) != SW)
  }

  /** Where the letter of the next call is read. */
  function Current(p: Parser): Cursor
    requires p.optind >= 0
  {
    if p.letP.Some? then p.letP.value else Cursor(p.optind, 1)
  }

  /** Reading inside a cluster: the end of the cluster is EOF with `optind` advanced
      (so a lone "-" ends the options), an unknown letter or ':' is the error '~'
      with `optind` unchanged, a flag letter returns with no argument and moves to
      the next element only when the cluster is exhausted, and an argument letter
      takes the rest of the cluster or else consumes the next element, failing with
      '~' when there is none. */
  lemma LetterSemantics(argv: seq<string>, optionS: string, p: Parser)
    requires Arguments(argv) && NulFree(optionS) && Valid(argv, p) && InCluster(argv, p)
    ensures var c := Current(p);
            var a := argv[c.arg];
            var ch := CharAt(a, c.off);
            var r := GetOpt(argv, optionS, p);
            && (ch == NUL ==> r == Eof(p.optind + 1))
            && (ch != NUL && (ch == ':' || ch !in optionS) ==>
                  r == Step(BadOption, None, Parser(p.optind, Some(Cursor(c.arg, c.off + 1)))))
            && (ch != NUL && ch != ':' && ch in optionS && !TakesArgument(optionS, ch) ==>
                  && r.reply == Letter(ch) && r.optarg == None
                  && (r.next.optind == p.optind + 1 <==> c.off + 1 == |a|)
                  && (r.next.optind == p.optind <==> c.off + 1 < |a|))
            && (ch != NUL && ch != ':' && TakesArgument(optionS, ch) && c.off + 1 < |a| ==>
                  r == Step(Letter(ch), Some(a[c.off + 1..]), Parser(p.optind + 1, None)))
            && (ch != NUL && ch != ':' && TakesArgument(optionS, ch) && c.off + 1 == |a| && p.optind + 1 < |argv| ==>
                  r == Step(Letter(ch), Some(argv[p.optind + 1]), Parser(p.optind + 2, None)))
            && (ch != NUL && ch != ':' && TakesArgument(optionS, ch) && c.off + 1 == |a| && p.optind + 1 >= |argv| ==>
                  r.reply == BadOption && r.optarg == None && r.next.optind == p.optind + 1)
  {
  }

  /** A lone switch character is not an error: it ends the options and is itself skipped. */
  lemma LoneSwitchIsEndOfOptions(argv: seq<string>, optionS: string, p: Parser)
    requires Arguments(argv) && NulFree(optionS) && Valid(argv, p)
    requires p.letP.None? && 0 <= p.optind < |argv| && argv[p.optind] == "-"
    ensures GetOpt(argv, optionS, p) == Eof(p.optind + 1)
  {
  }

  /** After '~' for an unknown final letter of a cluster, `letP` is left at the end
      of the cluster, so the following call answers EOF and steps past it. */
  lemma ErrorKeepsCursor(argv: seq<string>, optionS: string, p: Parser)
    requires Arguments(argv) && NulFree(optionS) && Valid(argv, p) && InCluster(argv, p)
    requires var c := Current(p); var ch := CharAt(argv[c.arg], c.off);
             ch != NUL && ch !in optionS && c.off + 1 == |argv[c.arg]|
    ensures var r := GetOpt(argv, optionS, p);
            && r.reply == BadOption
            && GetOpt(argv, optionS, r.next) == Eof(p.optind + 1)
  {
  }

  /** `q` is reached from `p` by calls that each returned a letter. */
  predicate Reaches(argv: seq<string>, optionS: string, p: Parser, q: Parser)
    requires Arguments(argv) && NulFree(optionS) && Valid(argv, p)
    ensures Reaches(argv, optionS, p, q) ==> Valid(argv, q)
    decreases ArgsLeft(argv, p), CharsLeft(argv, p)
  {
    || p == q
    || var r := GetOpt(argv, optionS, p);
       r.reply.Letter? && Reaches(argv, optionS, r.next, q)
  }

  /** Between the calls of an option loop started at `Start`: `optind` has not
      gone below 1, and `letP` is NULL or points at a character of its cluster,
      never at the NUL that ends it. */
  predicate Settled(argv: seq<string>, p: Parser) {
    && p.optind >= 1
    && (p.letP.Some? ==> p.letP.value.arg < |argv| && p.letP.value.off < |argv[p.letP.value.arg]|)
  }

  /** A call that returns a letter leaves the parser settled. */
  lemma LetterKeepsSettled(argv: seq<string>, optionS: string, p: Parser)
    requires Arguments(argv) && NulFree(optionS) && Valid(argv, p) && Settled(argv, p)
    requires GetOpt(argv, optionS, p).reply.Letter?
    ensures Settled(argv, GetOpt(argv, optionS, p).next)
  {
  }

  lemma {:induction false} ReachesKeepsSettled(argv: seq<string>, optionS: string, p: Parser, q: Parser)
    requires Arguments(argv) && NulFree(optionS) && Valid(argv, p) && Settled(argv, p)
    requires Reaches(argv, optionS, p, q)
    ensures Valid(argv, q) && Settled(argv, q)
    decreases ArgsLeft(argv, p), CharsLeft(argv, p)
  {
    if p != q {
      var r := GetOpt(argv, optionS, p);
      LetterKeepsSettled(argv, optionS, p);
      ReachesKeepsSettled(argv, optionS, r.next, q);
    }
  }

  /** `argv[k]` can be the first argument after the options: it does not start
      with the switch character, or it follows a lone "-" or an argument that
      starts with "--". */
  predicate FollowsOptions(argv: seq<string>, k: int)
    requires 1 <= k < |argv|
  {
    || CharAt(argv[k], 0) != SW
    || (k >= 2 && CharAt(argv[k - 1], 0) == SW && (CharAt(argv[k - 1], 1) == SW || CharAt(argv[k - 1], 1) == NUL))
  }

  /** Where EOF leaves `optind` when the parser is settled: past the arguments,
      or at an argument that follows the options. */
  lemma EndOfOptionsAt(argv: seq<string>, optionS: string, q: Parser)
    requires Arguments(argv) && NulFree(optionS) && Valid(argv, q) && Settled(argv, q)
    requires GetOpt(argv, optionS, q).reply.EndOfOptions?
    ensures var k := GetOpt(argv, optionS, q).next.optind;
            k >= 1 && (k < |argv| ==> FollowsOptions(argv, k))
  {
    var r := GetOpt(argv, optionS, q);
    if q.letP.Some? {
      var c := q.letP.value;
      assert CharAt(argv[c.arg], c.off) != NUL by { assert NulFree(argv[c.arg]); }
    }
  }

  /** The command line and option string of the worked example. */
  const ExampleArgv: seq<string> := ["aCommand", "-uPFPi", "-X", "-A", "L", "someFile"]
  const ExampleOptions: string := "A:F:PuU:wXZ:"

  /** Command lines shaped like the example: any program name and any final
      element that does not start with the switch character. */
  predicate ExampleShape(argv: seq<string>) {
    && Arguments(argv) && |argv| == 6
    && argv[1] == "-uPFPi" && argv[2] == "-X" && argv[3] == "-A" && argv[4] == "L"
    && CharAt(argv[5], 0) != SW
  }

  lemma ExampleIsWellFormed()
    ensures ExampleShape(ExampleArgv) && NulFree(ExampleOptions)
  {
    forall i | 0 <= i < |ExampleArgv| ensures NulFree(ExampleArgv[i]) {
    }
  }

  /** The characters of `ExampleOptions`, one by one. */
  lemma ExampleOptionsSpelled()
    ensures NulFree(ExampleOptions) && |ExampleOptions| == 12
    ensures ExampleOptions[0] == 'A' && ExampleOptions[1] == ':' && ExampleOptions[2] == 'F'
    ensures ExampleOptions[3] == ':' && ExampleOptions[4] == 'P' && ExampleOptions[5] == 'u'
    ensures ExampleOptions[6] == 'U' && ExampleOptions[7] == ':' && ExampleOptions[8] == 'w'
    ensures ExampleOptions[9] == 'X' && ExampleOptions[10] == 'Z' && ExampleOptions[11] == ':'
  {
  }

  /** `strchr` finds `ch` at its first occurrence `k`. */
  lemma FirstOccurrenceAt(optionS: string, ch: char, k: nat)
    requires k < |optionS| && optionS[k] == ch
    requires forall j :: 0 <= j < k ==> optionS[j] != ch
    ensures ch in optionS && IndexOf(optionS, ch) == k
    ensures TakesArgument(optionS, ch) <==> CharAt(optionS, k + 1) == ':'
  {
  }

  /** A flag letter, first found at `k` in `optionS`: more of the cluster is read
      next time, or the cluster is done. */
  lemma FlagStep(argv: seq<string>, optionS: string, p: Parser, k: nat)
    requires Arguments(argv) && NulFree(optionS) && Valid(argv, p) && InCluster(argv, p)
    requires k < |optionS| && optionS[k] != ':' && CharAt(optionS, k + 1) != ':'
    requires forall j :: 0 <= j < k ==> optionS[j] != optionS[k]
    requires CharAt(argv[Current(p).arg], Current(p).off) == optionS[k]
    ensures var c := Current(p);
            GetOpt(argv, optionS, p)
            == if c.off + 1 < |argv[c.arg]| then Step(Letter(optionS[k]), None, Parser(p.optind, Some(Cursor(c.arg, c.off + 1))))
               else Step(Letter(optionS[k]), None, Parser(p.optind + 1, None))
  {
    FirstOccurrenceAt(optionS, optionS[k], k);
    LetterSemantics(argv, optionS, p);
  }

  /** An argument letter, first found at `k` in `optionS`: the rest of the cluster
      is its argument, or else the next element is. */
  lemma ArgumentStep(argv: seq<string>, optionS: string, p: Parser, k: nat)
    requires Arguments(argv) && NulFree(optionS) && Valid(argv, p) && InCluster(argv, p)
    requires k < |optionS| && optionS[k] != ':' && CharAt(optionS, k + 1) == ':'
    requires forall j :: 0 <= j < k ==> optionS[j] != optionS[k]
    requires CharAt(argv[Current(p).arg], Current(p).off) == optionS[k]
    requires Current(p).off + 1 < |argv[Current(p).arg]| || p.optind + 1 < |argv|
    ensures var c := Current(p);
            GetOpt(argv, optionS, p)
            == if c.off + 1 < |argv[c.arg]| then Step(Letter(optionS[k]), Some(argv[c.arg][c.off + 1..]), Parser(p.optind + 1, None))
               else Step(Letter(optionS[k]), Some(argv[p.optind + 1]), Parser(p.optind + 2, None))
  {
    FirstOccurrenceAt(optionS, optionS[k], k);
    LetterSemantics(argv, optionS, p);
  }

  /** "-uPFPi", first letter: u is a flag with more of the cluster behind it. */
  lemma ExampleStep1(argv: seq<string>)
    requires ExampleShape(argv)
    ensures GetOpt(argv, ExampleOptions, Start) == Step(Letter('u'), None, Parser(1, Some(Cursor(1, 2))))
  {
    ExampleOptionsSpelled();
    assert argv[1] == "-uPFPi";
    FlagStep(argv, ExampleOptions, Start, 5);
  }

  /** Second letter of the cluster: P is a flag too. */
  lemma ExampleStep2(argv: seq<string>)
    requires ExampleShape(argv)
    ensures GetOpt(argv, ExampleOptions, Parser(1, Some(Cursor(1, 2))))
            == Step(Letter('P'), None, Parser(1, Some(Cursor(1, 3))))
  {
    ExampleOptionsSpelled();
    assert argv[1] == "-uPFPi";
    FlagStep(argv, ExampleOptions, Parser(1, Some(Cursor(1, 2))), 4);
  }

  /** Third letter: F takes an argument, and the rest of the cluster "Pi" is it. */
  lemma ExampleStep3(argv: seq<string>)
    requires ExampleShape(argv)
    ensures GetOpt(argv, ExampleOptions, Parser(1, Some(Cursor(1, 3))))
            == Step(Letter('F'), Some("Pi"), Parser(2, None))
  {
    ExampleOptionsSpelled();
    var a := argv[1];
    assert a == "-uPFPi";
    assert a[4..] == "Pi";
    ArgumentStep(argv, ExampleOptions, Parser(1, Some(Cursor(1, 3))), 2);
  }

  /** "-X": a flag that exhausts its cluster, so `optind` moves on. */
  lemma ExampleStep4(argv: seq<string>)
    requires ExampleShape(argv)
    ensures GetOpt(argv, ExampleOptions, Parser(2, None)) == Step(Letter('X'), None, Parser(3, None))
  {
    ExampleOptionsSpelled();
    assert argv[2] == "-X";
    FlagStep(argv, ExampleOptions, Parser(2, None), 9);
  }

  /** "-A L": an argument letter ending its cluster consumes the next element. */
  lemma ExampleStep5(argv: seq<string>)
    requires ExampleShape(argv)
    ensures GetOpt(argv, ExampleOptions, Parser(3, None)) == Step(Letter('A'), Some("L"), Parser(5, None))
  {
    ExampleOptionsSpelled();
    assert argv[3] == "-A" && argv[4] == "L";
    ArgumentStep(argv, ExampleOptions, Parser(3, None), 0);
  }

  /** "someFile" does not start with the switch character: EOF, `optind` kept. */
  lemma ExampleStep6(argv: seq<string>)
    requires ExampleShape(argv)
    ensures GetOpt(argv, ExampleOptions, Parser(5, None)) == Eof(5)
  {
    ExampleOptionsSpelled();
  }

  /** The worked example: with options "A:F:PuU:wXZ:" the command line
      `aCommand -uPFPi -X -A L someFile` (or any other program name and file name)
      yields u, P, F with "Pi", X, A with "L", and then EOF at the file name, whose
      index is left in `optind`. `ExampleIsWellFormed` shows the literal command
      line has this shape. */
  lemma WorkedExample(argv: seq<string>)
    requires ExampleShape(argv)
    ensures var s1 := GetOpt(argv, ExampleOptions, Start);
            var s2 := GetOpt(argv, ExampleOptions, s1.next);
            var s3 := GetOpt(argv, ExampleOptions, s2.next);
            var s4 := GetOpt(argv, ExampleOptions, s3.next);
            var s5 := GetOpt(argv, ExampleOptions, s4.next);
            var s6 := GetOpt(argv, ExampleOptions, s5.next);
            && s1.reply == Letter('u') && s1.optarg == None
            && s2.reply == Letter('P') && s2.optarg == None
            && s3.reply == Letter('F') && s3.optarg == Some("Pi")
            && s4.reply == Letter('X') && s4.optarg == None
            && s5.reply == Letter('A') && s5.optarg == Some("L")
            && s6.reply == EndOfOptions && s6.optarg == None && s6.next.optind == 5
  {
    ExampleStep1(argv);
    ExampleStep2(argv);
    ExampleStep3(argv);
    ExampleStep4(argv);
    ExampleStep5(argv);
    ExampleStep6(argv);
  }
}

=== FILE: session.dfy ===
/** One acquisition session of `main` after the command line is read: open the
    file, configure the instrument, write the header, run the loop, and tear down,
    with the exit status each path returns. */
module Session {
  import opened Base
  import opened Instrument
  import opened Keyboard
  import opened CommandLine
  import opened Acquisition
  import opened AcquisitionFacts

  /** `main`'s error returns. */
  const ErrFile: int := 4
  const ErrInst: int := 5

  const Version: string := "V20170725"

  /** What the outside world does: whether the data file opens, the start-up bus
      results, whether gnuplot launches, the keyboard when the loop starts, the
      loop's events, and whether the two closing writes succeed. */
  datatype World = World(
    fileOk: bool, startup: StartupBus, plotOk: bool, term: Terminal,
    events: seq<Event>, restoreOk: bool, presetOk: bool)

  predicate WellFormedWorld(w: World) {
    WellFormedStartup(w.startup) && AllWellFormed(w.events)
  }

  /** How the program leaves things when `main` returns: its status, the header
      lines, data rows and footer written, whether the file was closed, whether
      `init_keyboard` put the terminal into raw mode, whether the terminal is still
      in that mode, whether a gnuplot process was left
      without `pclose`, and the commands written to the instrument (the `:read?`
      of each iteration aside). */
  datatype Report = Report(
    status: int, header: seq<string>, rows: seq<Row>, footer: bool, fileClosed: bool,
    keyboardSetUp: bool, terminalRaw: bool, plotLeftOpen: bool, commands: seq<string>)

  /** A session either returned, or is still in its loop when the events run out. */
  datatype Session = Returned(report: Report) | Sampling(loop: Loop)

  /** The header lines, apart from the start time. */
  function Header(identity: string, comment: string): seq<string> {
    ["# k2000 " + Version, "# Instrument: " + identity, "# " + comment, "# min\treadout"]
  }

  /** What follows the loop. A failed `:read?` write returns ERR_INST at once,
      after closing gnuplot (if it runs at all), the file and the keyboard, but
      without the footer. Otherwise the footer is written, the file and keyboard
      closed, gnuplot closed only if graphics are on, and then the display is
      restored (if it was blanked) and the instrument preset; a failure of either
      write is ERR_INST, everything else 0, whatever ended the loop. */
  function Close(s: Settings, w: World, header: seq<string>, startupSent: seq<string>, out: Outcome): (r: Report)
    requires out.exit.Some?
    ensures r.fileClosed && r.keyboardSetUp && !r.terminalRaw && r.rows == out.state.rows && r.header == header
    ensures r.footer <==> out.exit != Some(WriteFailed)
    ensures r.status == 0 || r.status == ErrInst
    ensures r.status == 0 <==> out.exit != Some(WriteFailed) && (s.display || w.restoreOk) && w.presetOk
    ensures r.plotLeftOpen <==> w.plotOk && !s.graph && out.exit != Some(WriteFailed)
    ensures startupSent <= r.commands
    // after a failed `:read?` nothing more is written; otherwise the display is
    // restored when it was blanked, and the preset follows unless that failed
    ensures out.exit == Some(WriteFailed) ==> r.commands == startupSent
    ensures out.exit != Some(WriteFailed) ==>
              r.commands == startupSent + (if s.display then [] else [RestoreDisplayCommand])
                            + (if s.display || w.restoreOk then [PresetCommand] else [])
  {
    if out.exit == Some(WriteFailed) then
      Report(ErrInst, header, out.state.rows, false, true, true, false, false, startupSent)
    else
      var plotLeftOpen := w.plotOk && !s.graph;
      var restore := if s.display then [] else [RestoreDisplayCommand];
      if !s.display && !w.restoreOk then
        Report(ErrInst, header, out.state.rows, true, true, true, false, plotLeftOpen, startupSent + restore)
      else
        var commands := startupSent + restore + [PresetCommand];
        Report(if w.presetOk then 0 else ErrInst, header, out.state.rows, true, true, true, false, plotLeftOpen, commands)
  }

  /** The settings the loop reads; gnuplot is fed only if it is wanted and launched. */
  function PacingOf(s: Settings, w: World): Pacing {
    Pacing(s.delay, s.tstop, s.flushEvery, s.graph && w.plotOk)
  }

  /** The session from `fopen` to `return`. */
  function RunSession(s: Settings, w: World): (r: Session)
    requires InRange(s) && s.flushEvery > 0 && WellFormedWorld(w)
    ensures r.Returned? ==> !r.report.terminalRaw
    ensures r.Returned? ==> r.report.status in {0, ErrFile, ErrInst}
    ensures r.Returned? && r.report.status == ErrFile <==> !w.fileOk
    ensures r.Returned? && r.report.header == [] <==> !w.fileOk || Configure(s.mode, s.display, w.startup).StartupFailed?
    ensures r.Returned? && r.report.footer ==> |r.report.header| == 4
    // the header names the instrument by the identity read at start-up, and carries the comment
    ensures r.Returned? && r.report.header != [] ==>
              && w.startup.identityReply.Some?
              && r.report.header == ["# k2000 " + Version, "# Instrument: " + Received(w.startup.identityReply.value),
                                     "# " + s.comment, "# min\treadout"]
    // raw mode is set exactly when the loop is reached, and restored on every return after that
    ensures r.Returned? ==> (r.report.keyboardSetUp <==> w.fileOk && Configure(s.mode, s.display, w.startup).Configured?)
  {
    if !w.fileOk then
      Returned(Report(ErrFile, [], [], false, false, false, false, false, []))
    else
      match Configure(s.mode, s.display, w.startup)
      case StartupFailed(sent) =>
        Returned(Report(ErrInst, [], [], false, false, false, false, false, sent))
      case Configured(identity, sent) =>
        var out := Run(PacingOf(s, w), Begin(w.term), w.events);
        if out.exit.None? then Sampling(out.state)
        else Returned(Close(s, w, Header(identity, s.comment), sent, out))
  }
}

/** What a session guarantees, and two sessions worked through. */
module SessionFacts {
  import opened Base
  import opened Instrument
  import opened Keyboard
  import opened CommandLine
  import opened Acquisition
  import opened AcquisitionFacts
  import opened Session

  /** Status 0 exactly when the file opened, start-up succeeded, the loop ended on
      a stop key or a failed read (not a failed write), and the closing writes
      went through. A failed read in the loop is therefore not an error status. */
  lemma SessionStatus(s: Settings, w: World)
    requires InRange(s) && s.flushEvery > 0 && WellFormedWorld(w)
    requires RunSession(s, w).Returned?
    ensures var out := Run(PacingOf(s, w), Begin(w.term), w.events);
            RunSession(s, w).report.status == 0 <==>
              && w.fileOk && Configure(s.mode, s.display, w.startup).Configured?
              && (out.exit == Some(Stopped) || out.exit == Some(ReadFailed))
              && (s.display || w.restoreOk) && w.presetOk
  {
    if w.fileOk {
      match Configure(s.mode, s.display, w.startup)
      case StartupFailed(_) =>
      case Configured(identity, sent) =>
        var out := Run(PacingOf(s, w), Begin(w.term), w.events);
        assert out.exit.Some?;
        assert RunSession(s, w).report == Close(s, w, Header(identity, s.comment), sent, out);
        match out.exit.value
        case Stopped =>
        case ReadFailed =>
        case WriteFailed =>
    }
  }

  /** A session that got as far as the loop logs exactly the samples of the
      iterations it ran, in order, and writes the footer unless a `:read?` write failed. */
  lemma SessionLogsSamples(s: Settings, w: World)
    requires InRange(s) && s.flushEvery > 0 && WellFormedWorld(w)
    requires w.fileOk && Configure(s.mode, s.display, w.startup).Configured?
    ensures var out := Run(PacingOf(s, w), Begin(w.term), w.events);
            var r := RunSession(s, w);
            && (r.Returned? ==> r.report.rows == Samples(w.events[..out.used]))
            && (r.Returned? ==> (r.report.footer <==> out.exit != Some(WriteFailed)))
            && (r.Sampling? ==> r.loop.rows == Samples(w.events))
  {
    var p := PacingOf(s, w);
    var out := Run(p, Begin(w.term), w.events);
    RunLogsEverySample(p, Begin(w.term), w.events);
    var c := Configure(s.mode, s.display, w.startup);
    if out.exit.None? {
      assert w.events[..|w.events|] == w.events;
      assert RunSession(s, w) == Sampling(out.state);
    } else {
      assert RunSession(s, w) == Returned(Close(s, w, Header(c.identity, s.comment), c.sent, out));
    }
  }

  /** A start-up failure returns ERR_INST without touching file or terminal. */
  lemma StartupFailureIsInstrumentError(s: Settings, w: World)
    requires InRange(s) && s.flushEvery > 0 && WellFormedWorld(w)
    requires w.fileOk && Configure(s.mode, s.display, w.startup).StartupFailed?
    ensures var r := RunSession(s, w);
            r.Returned? && r.report.status == ErrInst && r.report.rows == [] && !r.report.footer
            && !r.report.keyboardSetUp && !r.report.terminalRaw
  {
  }

  const QuickSettings: Settings := Defaults.(delay := 0, flushEvery := 1)

  function GoodStartup(): StartupBus {
    StartupBus(true, true, true, Some("KEITHLEY\n"), true, true)
  }

  /** An iteration whose exchange succeeds with the reply `raw`, at minute 0, with no key typed. */
  function Good(raw: string): Event {
    Event(true, Some(raw), 0.0, [])
  }

  /** The three replies of the example, as logged: the LF dropped, and the
      overflow sentinel replaced. */
  lemma ExampleReadings()
    ensures Reading("+1.0E0\n") == "+1.0E0"
    ensures Reading("+9.9E37\n") == OverflowText
    ensures Reading("+3.0E0\n") == "+3.0E0"
  {
    assert Received("+1.0E0\n") == "+1.0E0";
    assert Received("+9.9E37\n") == OverflowSentinel;
    assert Received("+3.0E0\n") == "+3.0E0";
  }

  /** With no timeout and no key pending, a successful exchange logs its reading
      and the loop goes on with nothing pending. */
  lemma QuietStep(p: Pacing, s: Loop, raw: seq<char>)
    requires p.flushEvery > 0 && p.tstop == 0.0 && 1 <= |raw| <= 90
    requires Pending(s.term) == [] && !IsStopKey(s.key)
    ensures var (s1, x) := Iterate(p, s, Good(raw));
            && x.None? && s1.rows == s.rows + [Row(0.0, Reading(raw))]
            && Pending(s1.term) == [] && !IsStopKey(s1.key)
  {
    IterateKey(p, s, Good(raw));
    IterateTerminal(p, s, Good(raw));
  }

  /** The loop of that session: three readings, the second one the overflow
      sentinel, and then a failed read. */
  lemma ThreeReadingsThenFailedRead(p: Pacing, events: seq<Event>)
    requires p == Pacing(0, 0.0, 1, true)
    requires events == [Good("+1.0E0\n"), Good("+9.9E37\n"), Good("+3.0E0\n"), Event(true, None, 0.0, [])]
    ensures AllWellFormed(events)
    ensures var out := Run(p, Begin(Idle), events);
            && out.exit == Some(ReadFailed)
            && out.state.rows == [Row(0.0, "+1.0E0"), Row(0.0, "OVERFLOW"), Row(0.0, "+3.0E0")]
  {
    ExampleReadings();
    QuietStep(p, Begin(Idle), "+1.0E0\n");
    var s1 := Iterate(p, Begin(Idle), events[0]).0;
    QuietStep(p, s1, "+9.9E37\n");
    var s2 := Iterate(p, s1, events[1]).0;
    QuietStep(p, s2, "+3.0E0\n");
    var s3 := Iterate(p, s2, events[2]).0;
    assert s3.rows == [Row(0.0, "+1.0E0"), Row(0.0, "OVERFLOW"), Row(0.0, "+3.0E0")];
    var (s4, x4) := Iterate(p, s3, events[3]);
    assert x4 == Some(ReadFailed) && s4.rows == s3.rows;
    assert Run(p, s3, events[1..][1..][1..]) == Outcome(s4, x4, 1);
    assert Run(p, s2, events[1..][1..]) == Outcome(s4, x4, 2);
    assert Run(p, s1, events[1..]) == Outcome(s4, x4, 3);
  }

  /** Free-running, flushing every sample, no timeout: three readings and then a
      failed read. The loop breaks to the normal path, so the file has three rows
      and its footer, and the program returns 0. */
  lemma ReadFailureAfterThreeSamples()
    ensures var w := World(true, GoodStartup(), true, Idle,
                           [Good("+1.0E0\n"), Good("+9.9E37\n"), Good("+3.0E0\n"), Event(true, None, 0.0, [])],
                           true, true);
            var r := RunSession(QuickSettings, w);
            && r.Returned?
            && r.report.status == 0
            && r.report.footer
            && r.report.rows == [Row(0.0, "+1.0E0"), Row(0.0, "OVERFLOW"), Row(0.0, "+3.0E0")]
  {
    var events := [Good("+1.0E0\n"), Good("+9.9E37\n"), Good("+3.0E0\n"), Event(true, None, 0.0, [])];
    var w := World(true, GoodStartup(), true, Idle, events, true, true);
    ThreeReadingsThenFailedRead(PacingOf(QuickSettings, w), events);
  }

  /** The same, but the fourth `:read?` write fails: ERR_INST, no footer. */
  lemma WriteFailureAfterThreeSamples()
    ensures var w := World(true, GoodStartup(), true, Idle,
                           [Good("+1.0E0\n"), Good("+2.0E0\n"), Good("+3.0E0\n"), Event(false, None, 0.0, [])],
                           true, true);
            var r := RunSession(QuickSettings, w);
            && r.Returned?
            && r.report.status == ErrInst
            && !r.report.footer
            && |r.report.rows| == 3
  {
  }
}
